=== FILE: README.md ===
# MessageHelper diagnostic helpers, in Dafny

A model of the diagnostic helpers of Apache Camel's `MessageHelper`: the
functions that turn a message into text for logs and error reports without
disturbing it. The model covers:

- **body extraction for logging** (`extractBodyForLogging`, three overloads).
  A negative limit turns logging off. A `null` body gets a placeholder.
  Stream-like and file-based bodies are refused with their own placeholder
  unless allowed. Any other body is converted to a string, falling back to
  `toString()`. A stream cache that was read is reset. Over-long text is
  clipped with a notice giving the limit and the original length.
- **`extractBodyAsString`, `getBodyTypeName`, `resetStreamCache`.**
- **the XML dump** (`dumpAsXml`, four overloads). It produces a `<message>`
  element with a `<headers>` block in ascending key order (a `TreeMap`) and
  an optional `<body>` element. Every line starts with the indent.
- **header copying** (`copyHeaders`). This is a map update controlled by an
  override flag.
- **the message history table** (`doDumpMessageHistoryStacktrace` and its
  never-failing wrapper `dumpMessageHistoryStacktrace`). The table has
  fixed-width rows: one for the exchange's origin, then one per recorded
  step.

A Java object is a `Value`: `null`, or an instance described by:

- the set of tested types it implements (a stream cache may also be an
  `InputStream`, and a `StringSource` is also a `Source`);
- its canonical class name;
- its `toString()`.

The foreign collaborators are parameters of the model:

- the type converter;
- `StringHelper.xmlEncode`;
- `URISupport.sanitizeUri`;
- the exchange formatter;
- the clock.

The side effects on the message are result values: whether the body was
read, whether a stream cache was reset, and the message after
`extractBodyAsString`.

Files: `objects.dfy` (data), `text.dfy` (padding, `java.util.Formatter`
fields, decimal numerals with their parser, line joining), `order.dfy`
(`String.compareTo` and the ascending key enumeration), `body.dfy`,
`xml_dump.dfy`, `headers.dfy`, `history.dfy`.

Where the code and its documentation disagree, the model follows the code:

- **Rule width.** The rule under each history section title is 135 dashes,
  as the string literals in the code have it. 135 is also the width of the
  header row and of every table row.
- **Negative limit in `dumpAsXml`.** The doc comment of `dumpAsXml` (line
  314) describes a negative `maxChars` differently. The code passes it to
  the extractor, which writes "[Body is not logged]" into the `<body>`
  element (`XmlDump.NegativeLimitHidesBody`).
- **`Source` placeholder.** It names the package `java.xml.transform`, as
  the code spells it.
- **`allowFiles` without streams.** While streams are not allowed,
  `allowFiles` has no effect: the file test inside the stream tests
  (line 224) refuses file bodies on its own (`BodyText.FilesNeedStreams`).
  So the dump overloads' default of `allowFiles = true` never lets a file
  body through.

## Model

| member | source | states |
|---|---|---|
| Text.Spaces | camel-core/src/main/java/org/apache/camel/util/MessageHelper.java:320-323 | the indent prefix has exactly `indent` characters, all blanks, and is empty for a count that is not positive |
| Text.PadRight | camel-core/src/main/java/org/apache/camel/util/MessageHelper.java:46 | `%-ws` keeps the whole value at the start and pads with blanks up to at least `w` characters |
| Text.FitLeft | camel-core/src/main/java/org/apache/camel/util/MessageHelper.java:47 | `%-w.ws` is always exactly `w` wide: a short value is kept and padded on the right, a long one is cut to its first `w` characters |
| Text.FitRight | camel-core/src/main/java/org/apache/camel/util/MessageHelper.java:47 | `%w.ws` is always exactly `w` wide: a short value ends the field after blanks, a long one is cut to its first `w` characters |
| Text.NatToString | camel-core/src/main/java/org/apache/camel/util/MessageHelper.java:267 | the decimal rendering of a count is a canonical numeral: digits only, no leading zero except for zero itself |
| Text.IntToString | camel-core/src/main/java/org/apache/camel/util/MessageHelper.java:455 | a `long` prints with a minus sign exactly when negative, followed by a canonical numeral |
| Text.ParseNatOfNatToString | camel-core/src/main/java/org/apache/camel/util/MessageHelper.java:267 | reading back a rendered count gives the count |
| Text.NatToStringOfParseNat | camel-core/src/main/java/org/apache/camel/util/MessageHelper.java:267 | every canonical numeral is the rendering of the number it denotes |
| Text.IntToStringRoundTrip | camel-core/src/main/java/org/apache/camel/util/MessageHelper.java:455 | a rendered `long` is a well-formed numeral that reads back as the same number, so the rendering loses nothing |
| Text.JoinLinesBounds | camel-core/src/main/java/org/apache/camel/util/MessageHelper.java:326-386 | text built by `JoinLines`, line by line with newlines in between, starts with its first line and ends with its last |
| Text.TerminatedLength | camel-core/src/main/java/org/apache/camel/util/MessageHelper.java:455-466 | `Terminated` rows of one width `w`, each followed by a newline, take exactly `w + 1` characters per row |
| Text.TerminatedRowAt | camel-core/src/main/java/org/apache/camel/util/MessageHelper.java:455-466 | in such text, row `i` is found at offset `i * (w + 1)` and is followed by its newline |
| Text.TrimFitRight | camel-core/src/main/java/org/apache/camel/util/MessageHelper.java:47 | a right-justified value that fits its field, and does not start with a blank, is recovered by trimming |
| Text.TerminatedRowWithin | camel-core/src/main/java/org/apache/camel/util/MessageHelper.java:434-480 | with text before and after the rows, row `i` sits at the length of the leading text plus `i * (w + 1)` |
| StringOrder.CompareTo | camel-core/src/main/java/org/apache/camel/util/MessageHelper.java:334 | `String.compareTo` is zero exactly for equal strings |
| StringOrder.LessIsCompareToNegative | camel-core/src/main/java/org/apache/camel/util/MessageHelper.java:334 | the key order `Less` used for the `TreeMap` holds exactly when `compareTo` is negative: the first differing character decides, and otherwise a proper prefix comes first |
| StringOrder.LessIrreflexive | camel-core/src/main/java/org/apache/camel/util/MessageHelper.java:334 | no key sorts before itself under `String.compareTo` |
| StringOrder.LessAsymmetric | camel-core/src/main/java/org/apache/camel/util/MessageHelper.java:334 | two keys are never each before the other |
| StringOrder.LessTransitive | camel-core/src/main/java/org/apache/camel/util/MessageHelper.java:334 | the key order is transitive |
| StringOrder.LessTotal | camel-core/src/main/java/org/apache/camel/util/MessageHelper.java:334 | any two different keys are ordered one way or the other, so the `TreeMap` order is total |
| StringOrder.LeastExists | camel-core/src/main/java/org/apache/camel/util/MessageHelper.java:334 | every non-empty key set has a smallest key |
| StringOrder.SortedKeys | camel-core/src/main/java/org/apache/camel/util/MessageHelper.java:334-335 | the `TreeMap` iteration visits every header key exactly once, in strictly ascending order, and nothing else |
| StringOrder.AscendingDistinct | camel-core/src/main/java/org/apache/camel/util/MessageHelper.java:334-335 | a strictly ascending enumeration never repeats a key |
| StringOrder.AscendingUnique | camel-core/src/main/java/org/apache/camel/util/MessageHelper.java:334-335 | two strictly ascending sequences holding the same keys are equal |
| StringOrder.SortedKeysIsTheAscendingEnumeration | camel-core/src/main/java/org/apache/camel/util/MessageHelper.java:334-335 | any strictly ascending listing of exactly the header keys is the dump's header order: the order is fully determined |
| BodyText.RefusalOf | camel-core/src/main/java/org/apache/camel/util/MessageHelper.java:209-233 | a body is refused exactly when the policy forbids reading it (streams not allowed and a stream-like type, or files not allowed and file based); the refusal names a type the body has and, with streams off, the first applicable test in code order; with streams on only a file refusal is possible |
| BodyText.Placeholder | camel-core/src/main/java/org/apache/camel/util/MessageHelper.java:209-233 | a refused stream-like body gets "[Body is instance of ", then the name of the type that refused it at offset 21, then "]" and nothing more; a refused file gets "[Body is file based: " followed at offset 21 by the body's `toString()`; every placeholder ends with "]" |
| BodyText.RefusedTypeNamesDistinct | camel-core/src/main/java/org/apache/camel/util/MessageHelper.java:210-222 | the six stream-like refusals name six different types |
| BodyText.PlaceholdersDistinct | camel-core/src/main/java/org/apache/camel/util/MessageHelper.java:209-233 | two different refusals of the same body never give the same placeholder, so the log says which check refused the body |
| BodyText.Clip | camel-core/src/main/java/org/apache/camel/util/MessageHelper.java:265-270 | over-long text keeps its first `maxChars` characters followed by the clip notice; a limit of 0, or text within the limit, is left whole |
| BodyText.ClipReportsLength | camel-core/src/main/java/org/apache/camel/util/MessageHelper.java:265-268 | the clipped text is the first `maxChars` characters, then the notice `ClipSuffix` in place: "... [Body clipped after " at offset `maxChars`, the limit's numeral right after it, " chars, total length is ", the original length's numeral, and "]" as the last character; the length is the sum of these parts, and the two numerals found there read back as the limit and the original length |
| BodyText.ClipDeterminesOriginal | camel-core/src/main/java/org/apache/camel/util/MessageHelper.java:265-268 | two over-long texts clipped at the same limit give the same result only if they have the same length and the same first `maxChars` characters: the clipped text loses nothing but the tail |
| BodyText.BodyString | camel-core/src/main/java/org/apache/camel/util/MessageHelper.java:243-254 | the converter's answer is used only when there is an exchange and it gives one; otherwise the body's `toString()` |
| BodyText.ExtractBodyForLogging | camel-core/src/main/java/org/apache/camel/util/MessageHelper.java:199-271 | the result always starts with `prepend`; a negative limit gives the not-logged placeholder before the body is looked at; a `null` body gives the null placeholder; the body is read exactly when the policy admits it; a refused body gives its placeholder; a stream cache is reset exactly when it was read, whatever the conversion gave; a read body gives the null placeholder or its clipped text |
| BodyText.ExtractBodyForLoggingWithPrepend | camel-core/src/main/java/org/apache/camel/util/MessageHelper.java:164-184 | a file-based body is never read on this path; without an exchange the defaults apply (streams off, 1000 characters); with one, the context's settings where present |
| BodyText.ExtractBodyForLoggingDefault | camel-core/src/main/java/org/apache/camel/util/MessageHelper.java:149-151 | the text starts with "Message: " and is the prepend overload's text |
| BodyText.DefaultLogsClipped | camel-core/src/main/java/org/apache/camel/util/MessageHelper.java:164-184 | with no exchange, an ordinary readable body is logged after "Message: " and clipped at the default limit of 1000 characters |
| BodyText.DefaultClipExample | camel-core/src/main/java/org/apache/camel/util/MessageHelper.java:176-183 | with no exchange, a 1500-character body is logged as "Message: ", its first 1000 characters and the notice naming 1000 and 1500 |
| BodyText.DefaultClipNotice | camel-core/src/main/java/org/apache/camel/util/MessageHelper.java:267 | the clip notice for limit 1000 and length 1500 is the literal text with both numbers |
| BodyText.InputStreamRefusedExample | camel-core/src/main/java/org/apache/camel/util/MessageHelper.java:216-217 | an `InputStream` body with streams off gets its placeholder and is neither read nor reset |
| BodyText.SourceTestedBeforeStreamCache | camel-core/src/main/java/org/apache/camel/util/MessageHelper.java:210-215 | a body that is both a streamed `Source` and a stream cache gets the `Source` placeholder |
| BodyText.MemorySourcesAreRead | camel-core/src/main/java/org/apache/camel/util/MessageHelper.java:210 | `StringSource` and `BytesSource` bodies are read even with streams and files off |
| BodyText.FileRefusedWithStreamsAllowed | camel-core/src/main/java/org/apache/camel/util/MessageHelper.java:229-233 | with streams allowed but files not, a file body gets the file placeholder showing its `toString()` |
| BodyText.FilesNeedStreams | camel-core/src/main/java/org/apache/camel/util/MessageHelper.java:209-233 | with streams off, allowing files changes nothing for any body |
| BodyText.ExtractBodyAsString | camel-core/src/main/java/org/apache/camel/util/MessageHelper.java:64-85 | no message gives `null`; headers and exchange are untouched; a body with a stream-cache conversion is replaced by that cache, and the cache is reset exactly then; the string conversion of the resulting body wins, otherwise its `toString()`, and `null` stays `null` |
| BodyText.StripJavaLang | camel-core/src/main/java/org/apache/camel/util/MessageHelper.java:101-104 | a leading `java.lang.` is removed once, and putting it back gives the original name; other names are untouched |
| BodyText.GetBodyTypeName | camel-core/src/main/java/org/apache/camel/util/MessageHelper.java:96-105 | absent exactly when there is no message or the body has no canonical name; otherwise the canonical name with one leading `java.lang.` removed, and either that is the canonical name or `java.lang.` in front of it is |
| BodyText.BodyTypeNameOfString | camel-core/src/main/java/org/apache/camel/util/MessageHelper.java:101-102 | a `java.lang.String` body is named "String" |
| BodyText.ResetStreamCache | camel-core/src/main/java/org/apache/camel/util/MessageHelper.java:113-120 | only a message whose body is a stream cache gets a reset |
| BodyText.ExtractionResetsLikeResetStreamCache | camel-core/src/main/java/org/apache/camel/util/MessageHelper.java:256-259 | whenever extraction reads the body it resets exactly what `resetStreamCache` would reset |
| XmlDump.HeaderContent | camel-core/src/main/java/org/apache/camel/util/MessageHelper.java:346-358 | a `null` header, or one whose conversion fails or gives `null`, has empty element content; otherwise the escaped conversion |
| XmlDump.TypeAttribute | camel-core/src/main/java/org/apache/camel/util/MessageHelper.java:340-342 | the `type` attribute is empty exactly when there is no canonical class name; otherwise it is ` type="`, the name unchanged at offset 7, and a closing quote |
| XmlDump.HeaderLine | camel-core/src/main/java/org/apache/camel/util/MessageHelper.java:336-361 | every header element starts with the indent |
| XmlDump.HeaderLineLayout | camel-core/src/main/java/org/apache/camel/util/MessageHelper.java:338-360 | after the indent comes `    <header key="`, the key unescaped at offset 17 past the indent, its closing quote, the type attribute of the value, and the element text followed by `</header>`; the length leaves no room for anything else |
| XmlDump.HeaderLines | camel-core/src/main/java/org/apache/camel/util/MessageHelper.java:335-361 | one element per listed key, in the listed order, for that key's value, all indented |
| XmlDump.HeaderElements | camel-core/src/main/java/org/apache/camel/util/MessageHelper.java:334-361 | one header element per header of the message, each starting with the indent |
| XmlDump.HeadersBlock | camel-core/src/main/java/org/apache/camel/util/MessageHelper.java:330-364 | the block is absent for a message without headers, and otherwise has the two tags plus one line per header |
| XmlDump.HeadersBlockIndented | camel-core/src/main/java/org/apache/camel/util/MessageHelper.java:330-364 | every line of the block starts with the indent |
| XmlDump.HeadersBlockElements | camel-core/src/main/java/org/apache/camel/util/MessageHelper.java:330-364 | the block opens with `<headers>`, closes with `</headers>`, and line `i + 1` is the element for the `i`-th key in ascending order |
| XmlDump.BodyElement | camel-core/src/main/java/org/apache/camel/util/MessageHelper.java:366-382 | the body element starts with the indent |
| XmlDump.BodyElementLayout | camel-core/src/main/java/org/apache/camel/util/MessageHelper.java:367-381 | after the indent comes `  <body`, the type attribute at offset 7 past the indent, and the escaped text followed by `</body>`; the length leaves no room for anything else |
| XmlDump.BodyLine | camel-core/src/main/java/org/apache/camel/util/MessageHelper.java:366-382 | the body element of a message starts with the indent |
| XmlDump.BodyLineLayout | camel-core/src/main/java/org/apache/camel/util/MessageHelper.java:367-381 | the body element's type attribute names the body's canonical class, and its content is the escaped logging extraction of the body with an empty prefix, followed by `</body>` |
| XmlDump.DumpLines | camel-core/src/main/java/org/apache/camel/util/MessageHelper.java:317-387 | the dump has the opening and closing tags, one line per header plus the two block tags when there are headers, and one body line exactly when the body is included; it opens with `<message exchangeId="…">` and closes with `</message>` |
| XmlDump.DumpLinesIndented | camel-core/src/main/java/org/apache/camel/util/MessageHelper.java:320-386 | every line of the dump starts with the prefix of `indent` blanks |
| XmlDump.DumpHeaderElements | camel-core/src/main/java/org/apache/camel/util/MessageHelper.java:329-364 | the headers block comes right after the opening tag, line for line |
| XmlDump.HeadersBlockPresent | camel-core/src/main/java/org/apache/camel/util/MessageHelper.java:330-333 | the line after the opening tag is `<headers>` if and only if the message has headers |
| XmlDump.DumpBodyElement | camel-core/src/main/java/org/apache/camel/util/MessageHelper.java:366-382 | when the body is included it is the line before the closing tag and holds the extraction with an empty prefix; otherwise the dump has no line for it |
| XmlDump.DumpAsXml | camel-core/src/main/java/org/apache/camel/util/MessageHelper.java:317-387 | the text is the dump's lines joined by newlines, so it starts with the indented opening tag and ends with the indented closing tag, with no newline after it; a stream cache is reset exactly when the body is included, the limit is not negative, and the body is a stream cache the policy lets the extraction read |
| XmlDump.DumpAsXmlIndented | camel-core/src/main/java/org/apache/camel/util/MessageHelper.java:302-304 | streams refused, files allowed, clipped after 131072 characters; with streams refused a stream cache is never read, so this overload never resets one |
| XmlDump.DumpAsXmlWithBodyChoice | camel-core/src/main/java/org/apache/camel/util/MessageHelper.java:290-292 | as the full dump with no indent and those defaults |
| XmlDump.DumpAsXmlDefault | camel-core/src/main/java/org/apache/camel/util/MessageHelper.java:279-281 | as the full dump with the body included, no indent and those defaults |
| XmlDump.NegativeLimitHidesBody | camel-core/src/main/java/org/apache/camel/util/MessageHelper.java:375 | with a negative limit the body element holds the escaped "[Body is not logged]" |
| XmlDump.HeaderOrderExample | camel-core/src/main/java/org/apache/camel/util/MessageHelper.java:333-335 | headers `b` and `a` are listed `a` first |
| HeaderCopy.MergedHeaders | camel-core/src/main/java/org/apache/camel/util/MessageHelper.java:396-409 | the target ends with the union of both key sets; a source key's value is written iff overriding or the target has none (absent or `null`), else the target's is kept; target keys missing from the source are unchanged |
| HeaderCopy.MergeStep | camel-core/src/main/java/org/apache/camel/util/MessageHelper.java:403-407 | copying one more entry changes at most that key, and whether it does can be read off the target as updated so far |
| HeaderCopy.MergeOneMore | camel-core/src/main/java/org/apache/camel/util/MessageHelper.java:403-407 | the same step for any partial source map without that key |
| HeaderCopy.CopyHeaders | camel-core/src/main/java/org/apache/camel/util/MessageHelper.java:396-409 | the entry-by-entry loop, reading the updated target each time, ends with exactly the merged headers, whatever order it visits the keys in; no source headers means nothing changes |
| HeaderCopy.OverrideIsUnion | camel-core/src/main/java/org/apache/camel/util/MessageHelper.java:405 | with overriding, the result is the target updated with all of the source |
| HeaderCopy.KeepIsUnionFavouringTarget | camel-core/src/main/java/org/apache/camel/util/MessageHelper.java:405 | without overriding and with no `null` target header, every existing target header wins |
| HeaderCopy.CopyIdempotent | camel-core/src/main/java/org/apache/camel/util/MessageHelper.java:396-409 | copying the same headers a second time changes nothing |
| HistoryTable.Dashes | camel-core/src/main/java/org/apache/camel/util/MessageHelper.java:438 | the rule is made of dashes only, as many as asked for |
| HistoryTable.PreambleLayout | camel-core/src/main/java/org/apache/camel/util/MessageHelper.java:436-440 | the preamble `Preamble` is 289 characters: a blank line, "Message History", the rule `Banner` at offset 17 and the column titles `HeaderRow` at offset 153, each followed by a newline |
| HistoryTable.HeaderTitles | camel-core/src/main/java/org/apache/camel/util/MessageHelper.java:439 | `HeaderRow` puts "RouteId", "ProcessorId", "Processor" and "Elapsed (ms)" at offsets 0, 21, 42 and 123, the starts of its `%-20s %-20s %-80s %-12s` fields |
| HistoryTable.Row | camel-core/src/main/java/org/apache/camel/util/MessageHelper.java:47 | every row is exactly as wide as the rule, whatever its values |
| HistoryTable.RowLayout | camel-core/src/main/java/org/apache/camel/util/MessageHelper.java:47 | four fields of widths 18, 18, 78, 10 sit at offsets 1, 22, 43 and 124, each between its own `[` and `]` (at 0 and 19, 21 and 40, 42 and 121, 123 and 134), with the brackets of neighbouring fields separated by blanks at 20, 41 and 122 |
| HistoryTable.RowColumns | camel-core/src/main/java/org/apache/camel/util/MessageHelper.java:47 | route id, processor id and label are cut and left-justified to 18, 18 and 78 characters (`null` as "null"), the elapsed time cut and right-justified to 10, each at the same offset in every row and between its own brackets, as the template frames them |
| HistoryTable.RowIsFrameAndFields | camel-core/src/main/java/org/apache/camel/util/MessageHelper.java:47 | a row holds nothing but the template's brackets and blanks and its four fields: any text as wide as a row with that frame and those fields is the row |
| HistoryTable.HeaderSeparators | camel-core/src/main/java/org/apache/camel/util/MessageHelper.java:439 | the rule, the header row and every data row share one width, 135, and the header row has its blanks where the rows separate their fields |
| HistoryTable.ElapsedFieldOfRow | camel-core/src/main/java/org/apache/camel/util/MessageHelper.java:47 | the last field of a row is the right-justified elapsed time |
| HistoryTable.ElapsedReadBack | camel-core/src/main/java/org/apache/camel/util/MessageHelper.java:455 | an elapsed time that fits ten characters can be read back from its row |
| HistoryTable.OriginRow | camel-core/src/main/java/org/apache/camel/util/MessageHelper.java:442-456 | the origin row is as wide as the rule and has the template's frame; the exchange's route id fills both id columns, the sanitized endpoint URI (empty without an endpoint) the processor column, and the milliseconds since creation (zero without a creation time) the elapsed column |
| HistoryTable.EntryRow | camel-core/src/main/java/org/apache/camel/util/MessageHelper.java:459-466 | an entry's row is as wide as the rule |
| HistoryTable.EntryRowColumns | camel-core/src/main/java/org/apache/camel/util/MessageHelper.java:460-465 | an entry's row has the template's frame and holds its route id, its node's id, its node's label and its elapsed time, each in its own column |
| HistoryTable.EntryRows | camel-core/src/main/java/org/apache/camel/util/MessageHelper.java:459-467 | one row per entry, in recorded order |
| HistoryTable.EntryRowsSnoc | camel-core/src/main/java/org/apache/camel/util/MessageHelper.java:459-467 | formatting one more entry appends its row |
| HistoryTable.Trailer | camel-core/src/main/java/org/apache/camel/util/MessageHelper.java:469-479 | the trailer fails exactly when the formatter fails; it is empty with neither a formatter nor a stack trace; with a formatter it opens with the "Exchange" title and the rule, then the formatted text at offset 146 and a newline; with a stack trace it ends with the "Stacktrace" title and the rule, no newline after it; its length is the sum of the two sections' lengths |
| HistoryTable.TableRows | camel-core/src/main/java/org/apache/camel/util/MessageHelper.java:442-467 | a table has one more row than there are entries, all as wide as the rule |
| HistoryTable.FormatEntries | camel-core/src/main/java/org/apache/camel/util/MessageHelper.java:459-467 | the loop succeeds exactly when every entry has a node, and then yields the rows of all entries in order |
| HistoryTable.TableText | camel-core/src/main/java/org/apache/camel/util/MessageHelper.java:434-480 | the built table starts with the preamble and ends with the trailer (the formatter section and the stack-trace banner as requested) |
| HistoryTable.DoDumpMessageHistoryStacktrace | camel-core/src/main/java/org/apache/camel/util/MessageHelper.java:429-481 | no history (absent or empty) gives `null`; otherwise building fails exactly when some entry has no node or the formatter throws; else the result is the preamble, the origin row, the entry rows and the trailer |
| HistoryTable.DumpMessageHistoryStacktrace | camel-core/src/main/java/org/apache/camel/util/MessageHelper.java:419-426 | `null` exactly when there is no history; `""` exactly when building failed; otherwise the table, which is never empty |
| HistoryTable.TableStart | camel-core/src/main/java/org/apache/camel/util/MessageHelper.java:434-456 | a table opens with the title, the rule and the header row, and the origin row comes first after them |
| HistoryTable.TableLength | camel-core/src/main/java/org/apache/camel/util/MessageHelper.java:434-480 | a table holds exactly N + 1 rows of 136 characters (row and newline) for N entries, between the preamble and the trailer |
| HistoryTable.TableEntryRow | camel-core/src/main/java/org/apache/camel/util/MessageHelper.java:458-467 | entry `i` is row `i + 1`, at a fixed offset, so the entries appear in list order |

## Left out

- `getContentType` and `getContentEncoding` (lines 126-136): plain header lookups through the type converter, with nothing beyond the lookup to state.
- The type converter, the context properties and their Boolean and Integer parsing (lines 166-182, 247, 349) are not modelled. Each conversion is a function parameter. Where the code catches the converter's exceptions (lines 246-250 and 348-357), an absent result stands for both `null` and a thrown exception; elsewhere it stands for `null` only. The two logging settings are already-parsed optional values of the exchange. A property that converts to `null` makes the source throw while unboxing, and the model has no such case.
- BodyText.ExtractBodyForLogging: the body's `toString()` never fails in the model. The code calls it outside any `try` (line 252, and in the file placeholders at lines 225 and 231), so an exception from it reaches the caller. At line 252 that happens after a stream cache was read and before its reset at lines 257-259, so the cache is left unreset. The clause "a stream cache is reset exactly when it was read" is promised only for calls that return.
- BodyText.ExtractBodyForLogging: the message is never `null` in the model. For a `null` message the code returns the not-logged placeholder when the limit is negative, because the check at line 200 comes before the dereference at line 204, and throws otherwise.
- BodyText.ExtractBodyAsString: the model has no thrown conversion and no failing `toString()` (line 84). The code catches nothing here, so an exception from the stream-cache conversion (line 69) or the string conversion (line 74) reaches the caller. One from line 74 also leaves the stream cache set as the body at line 71 without the reset of line 81.
- `StringHelper.xmlEncode`, `URISupport.sanitizeUri` and `ObjectHelper.classCanonicalName` are foreign calls. The first two are string function parameters. The canonical name is data of the value.
- `StopWatch` and `Date` (lines 449-453): the clock reading is the parameter `now`, and the origin's elapsed time is `now` minus the creation time.
- HistoryTable.OriginRow: the `long` subtraction for the elapsed time does not wrap around in the model. Wrap-around needs timestamps about 292 million years apart.
- HistoryTable.DoDumpMessageHistoryStacktrace: the only failures modelled are an entry without a node and a formatter that throws. Other exceptions the wrapper would catch are not modelled, such as a history list holding objects of another class or a failing endpoint lookup.
- XmlDump.DumpLines: requires the message to have an exchange. The source reads the exchange id without checking, so a message without one throws before any output.
- Header maps use exact key equality. Camel's usual case-insensitive header map is not part of this model.
- The message and the stream cache are not mutated objects here. A reset is a flag in the result of the extraction and of the XML dump, and `extractBodyAsString` returns the message as it is afterwards.
- `String.format` is modelled only for the `%s` conversions used here.
- Model strings are sequences of Unicode code points, while Java strings are sequences of UTF-16 code units, in which a character outside the Basic Multilingual Plane is two `char`s (a surrogate pair). The model agrees with the code on text of Basic Multilingual Plane characters only. For other text:
  - `BodyText.Clip` cuts after `maxChars` code points where the code cuts after `maxChars` code units, and reports the length in code points (lines 266-267);
  - `Text.FitLeft` and `Text.FitRight` measure their field widths in code points (line 47);
  - `StringOrder.Less` and `StringOrder.CompareTo` compare code points, so `SortedKeys` can order such keys differently from the `TreeMap`, which compares code units (line 334);
  - a lone surrogate, which a Java string may hold, cannot be represented.

=== FILE: body.dfy ===
/**
  Turning a message body into text for logging without harming the message:
  stream-like and file-like bodies are refused unless allowed, a stream cache
  that is read is reset afterwards, and long text is clipped.
 */
module BodyText {
  import opened Objects
  import opened Text

  const NotLogged: string := "[Body is not logged]"
  const NullBody: string := "[Body is null]"
  const DefaultPrepend: string := "Message: "
  /** Clipping limit used when the context does not set one. */
  const DefaultMaxChars: int := 1000

  // ----- which bodies may be read -----

  /** The reasons a body is not read, in the order they are tested. */
  datatype Refusal =
    | RefusedSource
    | RefusedStreamCache
    | RefusedInputStream
    | RefusedOutputStream
    | RefusedReader
    | RefusedWriter
    | RefusedFile

  /** A `Source` that is not one of the two memory-based ones. */
  predicate IsStreamedSource(kinds: set<Kind>) {
    Source in kinds && !(StringSource in kinds || BytesSource in kinds)
  }

  predicate IsFileBased(kinds: set<Kind>) {
    WrappedFile in kinds || File in kinds
  }

  /** Whether the `instanceof` test behind refusal `q` succeeds. */
  predicate Applies(q: Refusal, kinds: set<Kind>) {
    match q
    case RefusedSource => IsStreamedSource(kinds)
    case RefusedStreamCache => StreamCache in kinds
    case RefusedInputStream => InputStream in kinds
    case RefusedOutputStream => OutputStream in kinds
    case RefusedReader => Reader in kinds
    case RefusedWriter => Writer in kinds
    case RefusedFile => IsFileBased(kinds)
  }

  /** Position of a refusal's test in the chain of tests. */
  function Rank(q: Refusal): nat {
    match q
    case RefusedSource => 0
    case RefusedStreamCache => 1
    case RefusedInputStream => 2
    case RefusedOutputStream => 3
    case RefusedReader => 4
    case RefusedWriter => 5
    case RefusedFile => 6
  }

  /** The safety policy stated without reference to the order of the tests: a
      body may be read when streams are allowed or none of the stream-like
      tests applies, and files are allowed or the body is not file based. */
  predicate MayRead(kinds: set<Kind>, allowStreams: bool, allowFiles: bool) {
    && (allowStreams || !StreamLike(kinds))
    && (allowFiles || !IsFileBased(kinds))
  }

  /** Any of the kinds that must not be read while streams are disallowed. */
  predicate StreamLike(kinds: set<Kind>) {
    || IsStreamedSource(kinds)
    || StreamCache in kinds || InputStream in kinds || OutputStream in kinds
    || Reader in kinds || Writer in kinds
    || IsFileBased(kinds)
  }

  /** The chain of tests applied to a non-null body before it is read. */
  function RefusalOf(kinds: set<Kind>, allowStreams: bool, allowFiles: bool): (r: Option<Refusal>)
    ensures r.None? <==> MayRead(kinds, allowStreams, allowFiles)
    ensures r.Some? ==> Applies(r.value, kinds)
    ensures r.Some? && !allowStreams ==>
      forall q: Refusal :: Applies(q, kinds) ==> Rank(r.value) <= Rank(q)
    ensures r.Some? && allowStreams ==> r.value == RefusedFile && !allowFiles
  {
    if !allowStreams && IsStreamedSource(kinds) then Some(RefusedSource)
    else if !allowStreams && StreamCache in kinds then Some(RefusedStreamCache)
    else if !allowStreams && InputStream in kinds then Some(RefusedInputStream)
    else if !allowStreams && OutputStream in kinds then Some(RefusedOutputStream)
    else if !allowStreams && Reader in kinds then Some(RefusedReader)
    else if !allowStreams && Writer in kinds then Some(RefusedWriter)
    else if IsFileBased(kinds) && (!allowStreams || !allowFiles) then Some(RefusedFile)
    else None
  }

  /** The type a refusal names; the one for `Source` names the package as
      the code spells it. */
  function RefusedTypeName(q: Refusal): string {
    match q
    case RefusedSource => "java.xml.transform.Source"
    case RefusedStreamCache => "org.apache.camel.StreamCache"
    case RefusedInputStream => "java.io.InputStream"
    case RefusedOutputStream => "java.io.OutputStream"
    case RefusedReader => "java.io.Reader"
    case RefusedWriter => "java.io.Writer"
    case RefusedFile => ""
  }

  /** The text logged instead of a refused body: the refused type in
      brackets, or for a file the body's `toString()`. */
  function Placeholder(q: Refusal, body: Value): (r: string)
    ensures q != RefusedFile ==> StartsWith(r, "[Body is instance of ")
    ensures q != RefusedFile ==> LineAt(r, 21, RefusedTypeName(q)) && |r| == 22 + |RefusedTypeName(q)|
    ensures q == RefusedFile ==> StartsWith(r, "[Body is file based: ") && LineAt(r, 21, ValueText(body))
    ensures EndsWith(r, "]")
  {
    if q == RefusedFile then
      var r := "[Body is file based: " + ValueText(body) + "]";
      Enclosed("[Body is file based: ", ValueText(body), "]");
      assert r[21..21 + |ValueText(body)|] == ValueText(body);
      r
    else
      var r := "[Body is instance of " + RefusedTypeName(q) + "]";
      Enclosed("[Body is instance of ", RefusedTypeName(q), "]");
      assert r[21..21 + |RefusedTypeName(q)|] == RefusedTypeName(q);
      r
  }

  /** Each stream-like refusal names its own type. */
  lemma RefusedTypeNamesDistinct(q1: Refusal, q2: Refusal)
    requires q1 != q2 && q1 != RefusedFile && q2 != RefusedFile
    ensures RefusedTypeName(q1) != RefusedTypeName(q2)
  {
    var n1 := RefusedTypeName(q1);
    var n2 := RefusedTypeName(q2);
    if |n1| == |n2| {
      assert n1[8] != n2[8];
    }
  }

  /** Different refusals of the same body are logged differently: each
      stream-like type has its own placeholder, and a file's placeholder
      differs from all of them. */
  lemma PlaceholdersDistinct(q1: Refusal, q2: Refusal, body: Value)
    requires q1 != q2
    ensures Placeholder(q1, body) != Placeholder(q2, body)
  {
    var p1 := Placeholder(q1, body);
    var p2 := Placeholder(q2, body);
    if q1 == RefusedFile || q2 == RefusedFile {
      assert p1[..21][9] != p2[..21][9];
    } else {
      RefusedTypeNamesDistinct(q1, q2);
    }
  }

  // ----- clipping -----

  /** The two fixed parts of the clip notice, 24 characters each. */
  const ClipOpening: string := "... [Body clipped after "
  const ClipMiddle: string := " chars, total length is "

  /** The notice appended to clipped text: the limit and the original
      length. */
  function ClipSuffix(maxChars: int, total: int): string {
    ClipOpening + IntToString(maxChars) + ClipMiddle + IntToString(total) + "]"
  }

  predicate Clipped(text: string, maxChars: int) {
    maxChars > 0 && |text| > maxChars
  }

  /** Keeps the first `maxChars` characters of an over-long text and says
      how long it was; a limit of 0 keeps everything. */
  function Clip(text: string, maxChars: int): (r: string)
    ensures Clipped(text, maxChars) ==> r == text[..maxChars] + ClipSuffix(maxChars, |text|)
    ensures !Clipped(text, maxChars) ==> r == text
  {
    if Clipped(text, maxChars) then text[..maxChars] + ClipSuffix(maxChars, |text|) else text
  }

  /** Where each part of a clipped text sits: the first `maxChars`
      characters, the opening of the notice, the limit as a numeral, the
      middle of the notice, the original length as a numeral running up to
      the closing bracket, which is the last character. Both numerals read
      back as the numbers they render. */
  lemma ClipReportsLength(text: string, maxChars: int)
    requires Clipped(text, maxChars)
    ensures var r := Clip(text, maxChars);
      var limit := IntToString(maxChars);
      var total := IntToString(|text|);
      && |r| == maxChars + 48 + |limit| + |total| + 1
      && LineAt(r, 0, text[..maxChars])
      && LineAt(r, maxChars, "... [Body clipped after ")
      && LineAt(r, maxChars + 24, limit)
      && LineAt(r, maxChars + 24 + |limit|, " chars, total length is ")
      && LineAt(r, maxChars + 48 + |limit|, total)
      && r[|r| - 1] == ']'
      && ParseInt(limit) == maxChars
      && ParseInt(total) == |text|
  {
    IntToStringRoundTrip(maxChars);
    IntToStringRoundTrip(|text|);
    var kept := text[..maxChars];
    var limit := IntToString(maxChars);
    var total := IntToString(|text|);
    var notice := ClipSuffix(maxChars, |text|);
    NoticeLayout(maxChars, |text|);
    Split(kept, notice);
    LineAtIn(kept + notice, maxChars, notice, 0, ClipOpening, maxChars);
    LineAtIn(kept + notice, maxChars, notice, 24, limit, maxChars + 24);
    LineAtIn(kept + notice, maxChars, notice, 24 + |limit|, ClipMiddle, maxChars + 24 + |limit|);
    LineAtIn(kept + notice, maxChars, notice, 48 + |limit|, total, maxChars + 48 + |limit|);
  }

  /** Where each part of the clip notice sits. */
  lemma NoticeLayout(maxChars: int, total: int)
    ensures var notice := ClipSuffix(maxChars, total);
      var l := IntToString(maxChars);
      var t := IntToString(total);
      && |notice| == 48 + |l| + |t| + 1
      && LineAt(notice, 0, ClipOpening)
      && LineAt(notice, 24, l)
      && LineAt(notice, 24 + |l|, ClipMiddle)
      && LineAt(notice, 48 + |l|, t)
      && notice[|notice| - 1] == ']'
  {
    assert |ClipOpening| == 24 && |ClipMiddle| == 24;
    FiveParts(ClipOpening, IntToString(maxChars), ClipMiddle, IntToString(total), "]");
  }

  /** The clipped text determines the original length and the kept prefix:
      two over-long texts clipped at the same limit give the same result
      only if they have the same length and the same first `maxChars`
      characters. */
  lemma {:induction false} ClipDeterminesOriginal(t1: string, t2: string, maxChars: int)
    requires Clipped(t1, maxChars) && Clipped(t2, maxChars)
    requires Clip(t1, maxChars) == Clip(t2, maxChars)
    ensures |t1| == |t2|
    ensures t1[..maxChars] == t2[..maxChars]
  {
    var r := Clip(t1, maxChars);
    var at := maxChars + 48 + |IntToString(maxChars)|;
    ClipReportsLength(t1, maxChars);
    ClipReportsLength(t2, maxChars);
    SameLineAt(r, at, IntToString(|t1|), IntToString(|t2|));
    SameLineAt(r, 0, t1[..maxChars], t2[..maxChars]);
  }

  // ----- extraction -----

  /** What extraction produced: the text, whether the body was read (converted
      or printed), and whether a stream cache was reset afterwards. */
  datatype Extraction = Extraction(text: string, materialized: bool, cacheReset: bool)

  /** The body as a string: the type converter's answer when the message has
      an exchange and conversion neither failed nor gave `null`, otherwise
      the body's own `toString()`. `convert` is the type converter; absent
      stands for both `null` and a thrown exception. */
  function BodyString(m: Message, convert: Value -> Option<string>): (r: Option<string>)
    requires m.body.Instance?
    ensures m.exchange.Some? && convert(m.body).Some? ==> r == convert(m.body)
    ensures m.exchange.None? || convert(m.body).None? ==> r == m.body.display
  {
    var converted := if m.exchange.Some? then convert(m.body) else None;
    if converted.Some? then converted else m.body.display
  }

  function ExtractBodyForLogging(m: Message, prepend: string, allowStreams: bool, allowFiles: bool,
                                 maxChars: int, convert: Value -> Option<string>): (r: Extraction)
    ensures StartsWith(r.text, prepend)
    // a negative limit turns logging off before the body is looked at
    ensures maxChars < 0 ==> r == Extraction(prepend + NotLogged, false, false)
    ensures 0 <= maxChars && m.body.Null? ==> r == Extraction(prepend + NullBody, false, false)
    // only a body the safety policy admits is read
    ensures r.materialized <==>
      0 <= maxChars && m.body.Instance? && MayRead(m.body.kinds, allowStreams, allowFiles)
    ensures 0 <= maxChars && m.body.Instance? && !r.materialized ==>
      r.text == prepend + Placeholder(RefusalOf(m.body.kinds, allowStreams, allowFiles).value, m.body)
    // a stream cache is reset exactly when it was read, whatever the conversion did
    ensures r.cacheReset <==> r.materialized && StreamCache in m.body.kinds
    ensures r.materialized && BodyString(m, convert).None? ==> r.text == prepend + NullBody
    ensures r.materialized && BodyString(m, convert).Some? ==>
      r.text == prepend + Clip(BodyString(m, convert).value, maxChars)
  {
    if maxChars < 0 then Extraction(prepend + NotLogged, false, false)
    else match m.body
      case Null => Extraction(prepend + NullBody, false, false)
      case Instance(kinds, _, _) =>
        match RefusalOf(kinds, allowStreams, allowFiles)
        case Some(q) => Extraction(prepend + Placeholder(q, m.body), false, false)
        case None =>
          var reset := StreamCache in kinds;
          match BodyString(m, convert)
          case None => Extraction(prepend + NullBody, true, reset)
          case Some(text) => Extraction(prepend + Clip(text, maxChars), true, reset)
  }

  /** The limit and stream switch read from the exchange's context, with
      their defaults when the message has no exchange or the property is not
      set; files are never allowed on this path. */
  function ExtractBodyForLoggingWithPrepend(m: Message, prepend: string, convert: Value -> Option<string>): (r: Extraction)
    ensures m.body.Instance? && IsFileBased(m.body.kinds) ==> !r.materialized
    ensures m.exchange.None? ==> r == ExtractBodyForLogging(m, prepend, false, false, DefaultMaxChars, convert)
    ensures m.exchange.Some? ==>
      r == ExtractBodyForLogging(m, prepend, m.exchange.value.logStreams.GetOr(false), false,
                                 m.exchange.value.logMaxChars.GetOr(DefaultMaxChars), convert)
  {
    var streams := if m.exchange.Some? then m.exchange.value.logStreams.GetOr(false) else false;
    var maxChars := if m.exchange.Some? then m.exchange.value.logMaxChars.GetOr(DefaultMaxChars) else DefaultMaxChars;
    ExtractBodyForLogging(m, prepend, streams, false, maxChars, convert)
  }

  function ExtractBodyForLoggingDefault(m: Message, convert: Value -> Option<string>): (r: Extraction)
    ensures StartsWith(r.text, DefaultPrepend)
    ensures r == ExtractBodyForLoggingWithPrepend(m, DefaultPrepend, convert)
  {
    ExtractBodyForLoggingWithPrepend(m, DefaultPrepend, convert)
  }

  /** Without an exchange, a plain body is logged after "Message: " and
      clipped at the default limit of 1000 characters. */
  lemma DefaultLogsClipped(m: Message, convert: Value -> Option<string>, a: string)
    requires m.exchange.None?
    requires m.body == Instance({}, Some("java.lang.String"), Some(a))
    ensures ExtractBodyForLoggingDefault(m, convert).text == DefaultPrepend + Clip(a, DefaultMaxChars)
  {
    assert MayRead(m.body.kinds, false, false);
    assert BodyString(m, convert) == Some(a);
  }

  /** Without context settings, a 1500-character body is logged as its first
      1000 characters followed by the clip notice. */
  lemma DefaultClipExample(m: Message, convert: Value -> Option<string>, a: string)
    requires m.exchange.None?
    requires |a| == 1500
    requires m.body == Instance({}, Some("java.lang.String"), Some(a))
    ensures ExtractBodyForLoggingDefault(m, convert).text ==
      "Message: " + a[..1000] + ("... [Body clipped after " + "1000" + " chars, total length is " + "1500" + "]")
  {
    DefaultLogsClipped(m, convert, a);
    assert Clip(a, 1000) == a[..1000] + ClipSuffix(1000, 1500) by {
      assert Clipped(a, 1000);
    }
    DefaultClipNotice();
    assert DefaultPrepend + (a[..1000] + ClipSuffix(1000, 1500))
        == DefaultPrepend + a[..1000] + ClipSuffix(1000, 1500);
  }

  lemma DefaultClipNotice()
    ensures ClipSuffix(1000, 1500) == "... [Body clipped after " + "1000" + " chars, total length is " + "1500" + "]"
  {
    assert NatToString(1) == "1" && NatToString(15) == "15" && NatToString(150) == "150";
    assert NatToString(10) == "10" && NatToString(100) == "100";
    assert IntToString(1000) == "1000";
    assert IntToString(1500) == "1500";
  }

  /** An `InputStream` body is not touched when streams are not allowed. */
  lemma InputStreamRefusedExample(m: Message, prepend: string, convert: Value -> Option<string>)
    requires m.body.Instance? && m.body.kinds == {InputStream}
    ensures ExtractBodyForLogging(m, prepend, false, true, 0, convert) ==
      Extraction(prepend + ("[Body is instance of " + "java.io.InputStream" + "]"), false, false)
  {
  }

  /** A body that is both a streamed `Source` and a stream cache gets the
      `Source` placeholder: that test comes first. */
  lemma SourceTestedBeforeStreamCache(m: Message, convert: Value -> Option<string>)
    requires m.body.Instance? && m.body.kinds == {Source, StreamCache}
    ensures ExtractBodyForLogging(m, "", false, true, 0, convert) ==
      Extraction("[Body is instance of " + "java.xml.transform.Source" + "]", false, false)
  {
  }

  /** `StringSource` and `BytesSource` are memory based and are read even
      when streams are not allowed. */
  lemma MemorySourcesAreRead(m: Message, convert: Value -> Option<string>)
    requires m.body.Instance?
    requires m.body.kinds == {Source, StringSource} || m.body.kinds == {Source, BytesSource}
    ensures ExtractBodyForLogging(m, "", false, false, 0, convert).materialized
  {
    assert MayRead(m.body.kinds, false, false) by {
      forall q: Refusal ensures !Applies(q, m.body.kinds) { }
    }
  }

  /** A file-based body is refused whenever files are not allowed, even if
      streams are. */
  lemma FileRefusedWithStreamsAllowed(m: Message, prepend: string, maxChars: int, convert: Value -> Option<string>)
    requires 0 <= maxChars
    requires m.body.Instance? && IsFileBased(m.body.kinds)
    ensures ExtractBodyForLogging(m, prepend, true, false, maxChars, convert) ==
      Extraction(prepend + "[Body is file based: " + ValueText(m.body) + "]", false, false)
  {
  }

  /** While streams are not allowed, allowing files changes nothing: the
      file test inside the stream tests refuses file bodies on its own. */
  lemma FilesNeedStreams(m: Message, prepend: string, maxChars: int, convert: Value -> Option<string>)
    ensures ExtractBodyForLogging(m, prepend, false, true, maxChars, convert)
            == ExtractBodyForLogging(m, prepend, false, false, maxChars, convert)
  {
    if 0 <= maxChars && m.body.Instance? {
      assert RefusalOf(m.body.kinds, false, true) == RefusalOf(m.body.kinds, false, false);
    }
  }

  // ----- the other body helpers -----

  /** Outcome of `extractBodyAsString`: the text (absent for `null`), the
      message afterwards (the body is replaced by the stream cache the message
      converted it to, if any) and whether that cache was reset. */
  datatype BodyAsString = BodyAsString(text: Option<string>, message: Option<Message>, cacheReset: bool)

  /** `asCache` and `asText` are the message's conversions of its body to a
      `StreamCache` and to a `String` (`Null` / absent when there is none). */
  function ExtractBodyAsString(m: Option<Message>, asCache: Value -> Value, asText: Value -> Option<string>): (r: BodyAsString)
    ensures m.None? ==> r == BodyAsString(None, None, false)
    ensures m.Some? ==> (r.message.Some?
      && r.message.value.headers == m.value.headers
      && r.message.value.exchange == m.value.exchange)
    // the cache the body was turned into becomes the body, and is reset
    ensures r.cacheReset <==> m.Some? && asCache(m.value.body) != Null
    ensures r.cacheReset ==> r.message.value.body == asCache(m.value.body)
    ensures m.Some? && !r.cacheReset ==> r.message == m
    // the string conversion wins; otherwise the body's own toString()
    ensures m.Some? && asText(r.message.value.body).Some? ==> r.text == asText(r.message.value.body)
    ensures m.Some? && asText(r.message.value.body).None? && r.message.value.body.Null? ==> r.text.None?
    ensures m.Some? && asText(r.message.value.body).None? && r.message.value.body.Instance? ==>
      r.text == r.message.value.body.display
  {
    match m
    case None => BodyAsString(None, None, false)
    case Some(msg) =>
      var cache := asCache(msg.body);
      var after := if cache != Null then msg.(body := cache) else msg;
      var answer := asText(after.body);
      var text := if answer.Some? then answer
                  else match after.body
                    case Null => None
                    case Instance(_, _, display) => display;
      BodyAsString(text, Some(after), cache != Null)
  }

  /** Drops a leading `java.lang.` once. */
  function StripJavaLang(name: string): (r: string)
    ensures StartsWith(name, "java.lang.") ==> "java.lang." + r == name
    ensures !StartsWith(name, "java.lang.") ==> r == name
  {
    if StartsWith(name, "java.lang.") then name[10..] else name
  }

  function GetBodyTypeName(m: Option<Message>): (r: Option<string>)
    ensures r.None? <==> m.None? || CanonicalName(m.value.body).None?
    ensures m.Some? && CanonicalName(m.value.body).Some? ==>
      r == Some(StripJavaLang(CanonicalName(m.value.body).value))
    ensures r.Some? ==> CanonicalName(m.value.body) == Some(r.value)
                        || CanonicalName(m.value.body) == Some("java.lang." + r.value)
  {
    match m
    case None => None
    case Some(msg) =>
      match CanonicalName(msg.body)
      case None => None
      case Some(name) => Some(StripJavaLang(name))
  }

  /** Built-in Java types are named without their package. */
  lemma BodyTypeNameOfString(m: Message)
    requires m.body.Instance? && m.body.canonicalName == Some("java.lang.String")
    ensures GetBodyTypeName(Some(m)) == Some("String")
  {
    assert StartsWith("java.lang.String", "java.lang.");
  }

  /** Whether `resetStreamCache` resets the body: only a stream cache is. */
  function ResetStreamCache(m: Option<Message>): (reset: bool)
    ensures reset ==> m.Some? && m.value.body.Instance?
    ensures m.Some? && m.value.body.Instance? ==> (reset <==> StreamCache in m.value.body.kinds)
  {
    m.Some? && m.value.body.Instance? && StreamCache in m.value.body.kinds
  }

  /** Logging extraction resets exactly the bodies `resetStreamCache` would
      reset, provided it read them. */
  lemma ExtractionResetsLikeResetStreamCache(m: Message, prepend: string, allowStreams: bool, allowFiles: bool,
                                             maxChars: int, convert: Value -> Option<string>)
    requires ExtractBodyForLogging(m, prepend, allowStreams, allowFiles, maxChars, convert).materialized
    ensures ExtractBodyForLogging(m, prepend, allowStreams, allowFiles, maxChars, convert).cacheReset
            == ResetStreamCache(Some(m))
  {
  }
}

=== FILE: headers.dfy ===
/**
  Copying the headers of one message onto another, where an existing
  non-null target header is kept unless overriding is asked for.
 */
module HeaderCopy {
  import opened Objects

  /** Whether the copy writes the source's value for `k` over the target:
      when overriding, or when the target has no value (absent or `null`). */
  predicate Writes(k: string, target: map<string, Value>, override: bool) {
    override || k !in target || target[k].Null?
  }

  /** The headers the target holds after the copy, key by key. */
  function MergedHeaders(source: map<string, Value>, target: map<string, Value>, override: bool): (r: map<string, Value>)
    ensures r.Keys == source.Keys + target.Keys
    ensures forall k :: k in source && Writes(k, target, override) ==> r[k] == source[k]
    ensures forall k :: k in source && !Writes(k, target, override) ==> r[k] == target[k]
    ensures forall k :: k in target && k !in source ==> r[k] == target[k]
  {
    map k | k in source.Keys + target.Keys ::
      if k in source && Writes(k, target, override) then source[k] else target[k]
  }

  /** The source headers whose keys are in `done`. */
  function Restrict(source: map<string, Value>, done: set<string>): (r: map<string, Value>)
    ensures r.Keys == source.Keys * done
    ensures forall k :: k in r ==> r[k] == source[k]
  {
    map k | k in source.Keys * done :: source[k]
  }

  /** Copying one more source header extends the partial copy by that header
      alone, and only when the copy writes it; whether it writes can be read
      off the partial copy, since no earlier step touched that key. */
  lemma MergeStep(source: map<string, Value>, done: set<string>, k: string, target: map<string, Value>, override: bool)
    requires k in source && k !in done
    ensures var before := MergedHeaders(Restrict(source, done), target, override);
      MergedHeaders(Restrict(source, done + {k}), target, override)
        == if k !in before || before[k].Null? || override then before[k := source[k]] else before
  {
    var part := Restrict(source, done);
    assert Restrict(source, done + {k}) == part[k := source[k]];
    MergeOneMore(part, k, source[k], target, override);
  }

  lemma MergeOneMore(part: map<string, Value>, k: string, v: Value, target: map<string, Value>, override: bool)
    requires k !in part
    ensures var before := MergedHeaders(part, target, override);
      MergedHeaders(part[k := v], target, override)
        == if k !in before || before[k].Null? || override then before[k := v] else before
  {
    var before := MergedHeaders(part, target, override);
    var after := MergedHeaders(part[k := v], target, override);
    assert k in before <==> k in target;
    assert k in target ==> before[k] == target[k];
    if Writes(k, target, override) {
      assert after.Keys == before[k := v].Keys;
    } else {
      assert after.Keys == before.Keys;
    }
  }

  /** `copyHeaders`: visits the source headers one at a time, as the map's
      entry iteration does, consulting the target as updated so far. */
  method CopyHeaders(source: map<string, Value>, target: map<string, Value>, override: bool)
    returns (r: map<string, Value>)
    ensures |source| == 0 ==> r == target
    ensures r == MergedHeaders(source, target, override)
  {
    if |source| == 0 {
      assert MergedHeaders(source, target, override) == target;
      return target;
    }
    r := target;
    var rest := source.Keys;
    NothingCopiedYet(source, target, override);
    while rest != {}
      invariant rest <= source.Keys
      invariant r == MergedHeaders(Restrict(source, source.Keys - rest), target, override)
      decreases rest
    {
      var k :| k in rest;
      MergeStep(source, source.Keys - rest, k, target, override);
      if k !in r || r[k].Null? || override {
        r := r[k := source[k]];
      }
      OneMoreDone(source.Keys, rest, k);
      rest := rest - {k};
    }
    AllCopied(source);
  }

  lemma NothingCopiedYet(source: map<string, Value>, target: map<string, Value>, override: bool)
    ensures MergedHeaders(Restrict(source, source.Keys - source.Keys), target, override) == target
  {
    assert Restrict(source, source.Keys - source.Keys) == map[];
  }

  lemma OneMoreDone(all: set<string>, rest: set<string>, k: string)
    requires rest <= all && k in rest
    ensures all - (rest - {k}) == (all - rest) + {k}
  {
  }

  lemma AllCopied(source: map<string, Value>)
    ensures Restrict(source, source.Keys - {}) == source
  {
  }

  /** With overriding, the source wins on every shared key: the copy is the
      map union with the source on the right. */
  lemma OverrideIsUnion(source: map<string, Value>, target: map<string, Value>)
    ensures MergedHeaders(source, target, true) == target + source
  {
  }

  /** Without overriding, and with no `null` headers in the target, the
      target wins on every shared key. */
  lemma KeepIsUnionFavouringTarget(source: map<string, Value>, target: map<string, Value>)
    requires forall k :: k in target ==> target[k] != Null
    ensures MergedHeaders(source, target, false) == source + target
  {
  }

  /** Copying the same headers a second time changes nothing. */
  lemma CopyIdempotent(source: map<string, Value>, target: map<string, Value>, override: bool)
    ensures MergedHeaders(source, MergedHeaders(source, target, override), override)
            == MergedHeaders(source, target, override)
  {
    var once := MergedHeaders(source, target, override);
    var twice := MergedHeaders(source, once, override);
    forall k | k in twice
      ensures twice[k] == once[k]
    {
      if k in source && Writes(k, once, override) && !Writes(k, target, override) {
        assert once[k] == target[k];
      }
    }
  }
}

=== FILE: history.dfy ===
/**
  The message history table: a fixed-width text table with one row for the
  exchange's origin and one per recorded processor step, optionally followed
  by an exchange section and a stack trace heading. Building it must never
  raise, so any failure while building yields the empty string.
 */
module HistoryTable {
  import opened Objects
  import opened Text

  /** `n` dashes. */
  function Dashes(n: nat): (r: string)
    ensures |r| == n
    ensures forall i :: 0 <= i < n ==> r[i] == '-'
  {
    seq(n, i => '-')
  }

  /** The width of a table row, and of the rule and header row above them. */
  const RowWidth: nat := 135

  /** The rule under each section title: 135 dashes, as wide as a row. */
  const Banner: string := Dashes(135)

  /** `MESSAGE_HISTORY_HEADER` (`%-20s %-20s %-80s %-12s`) applied to the
      four column titles. */
  const HeaderRow: string :=
    PadRight("RouteId", 20) + " " + PadRight("ProcessorId", 20) + " "
    + PadRight("Processor", 80) + " " + PadRight("Elapsed (ms)", 12)

  /** Everything before the first row: a blank line, the title, the rule and
      the column titles. */
  const Preamble: string := "\n" + "Message History\n" + Banner + "\n" + HeaderRow + "\n"

  /** `MESSAGE_HISTORY_OUTPUT` (`[%-18.18s] [%-18.18s] [%-78.78s] [%10.10s]`):
      the route id, processor id and processor label cut and left-justified,
      the elapsed milliseconds cut and right-justified; `null` prints as
      "null". */
  function Row(routeId: Option<string>, id: Option<string>, processor: Option<string>, elapsed: int): (r: string)
    ensures |r| == RowWidth
  {
    "[" + FitLeft(JavaText(routeId), 18) + "] [" + FitLeft(JavaText(id), 18)
    + "] [" + FitLeft(JavaText(processor), 78) + "] [" + FitRight(IntToString(elapsed), 10) + "]"
  }

  /** The frame of a row, as in the template: each field between its own
      pair of brackets, and the bracketed fields separated by one blank. */
  predicate RowFrame(r: string)
    requires |r| == RowWidth
  {
    && r[0] == '[' && r[19] == ']' && r[20] == ' '
    && r[21] == '[' && r[40] == ']' && r[41] == ' '
    && r[42] == '[' && r[121] == ']' && r[122] == ' '
    && r[123] == '[' && r[134] == ']'
  }

  /** The elapsed-time field of a row. */
  function ElapsedField(row: string): string
    requires |row| == RowWidth
  {
    row[124..134]
  }

  /** Every field of a row sits at the same offset, so the columns of all
      rows line up, and the separating blanks of a row fall where the header
      row has its own. */
  lemma RowColumns(routeId: Option<string>, id: Option<string>, processor: Option<string>, elapsed: int)
    ensures var r := Row(routeId, id, processor, elapsed);
      && RowFrame(r)
      && r[1..19] == FitLeft(JavaText(routeId), 18)
      && r[22..40] == FitLeft(JavaText(id), 18)
      && r[43..121] == FitLeft(JavaText(processor), 78)
      && ElapsedField(r) == FitRight(IntToString(elapsed), 10)
  {
    RowLayout(FitLeft(JavaText(routeId), 18), FitLeft(JavaText(id), 18),
              FitLeft(JavaText(processor), 78), FitRight(IntToString(elapsed), 10));
  }

  /** The frame and the four fields leave nothing else in a row: any text
      as wide as a row, with the row's frame and the fields of `Row`, is
      that row. */
  lemma RowIsFrameAndFields(routeId: Option<string>, id: Option<string>, processor: Option<string>, elapsed: int,
                            r: string)
    requires |r| == RowWidth && RowFrame(r)
    requires r[1..19] == FitLeft(JavaText(routeId), 18) && r[22..40] == FitLeft(JavaText(id), 18)
    requires r[43..121] == FitLeft(JavaText(processor), 78)
    requires ElapsedField(r) == FitRight(IntToString(elapsed), 10)
    ensures r == Row(routeId, id, processor, elapsed)
  {
    RowColumns(routeId, id, processor, elapsed);
    SameFrameAndFields(r, Row(routeId, id, processor, elapsed));
  }

  lemma SameFrameAndFields(r: string, q: string)
    requires |r| == |q| == RowWidth && RowFrame(r) && RowFrame(q)
    requires r[1..19] == q[1..19] && r[22..40] == q[22..40] && r[43..121] == q[43..121]
    requires r[124..134] == q[124..134]
    ensures r == q
  {
    forall i | 0 <= i < RowWidth
      ensures r[i] == q[i]
    {
      if 1 <= i < 19 {
        assert r[1..19][i - 1] == q[1..19][i - 1];
      } else if 22 <= i < 40 {
        assert r[22..40][i - 22] == q[22..40][i - 22];
      } else if 43 <= i < 121 {
        assert r[43..121][i - 43] == q[43..121][i - 43];
      } else if 124 <= i < 134 {
        assert r[124..134][i - 124] == q[124..134][i - 124];
      }
    }
  }

  lemma RowLayout(a: string, b: string, c: string, d: string)
    requires |a| == 18 && |b| == 18 && |c| == 78 && |d| == 10
    ensures var r := "[" + a + "] [" + b + "] [" + c + "] [" + d + "]";
      && |r| == RowWidth && RowFrame(r)
      && r[1..19] == a && r[22..40] == b && r[43..121] == c && r[124..134] == d
  {
    var p1 := "[" + a + "] [";
    var p2 := p1 + b + "] [";
    var p3 := p2 + c + "] [";
    var r := p3 + d + "]";
    assert r[..22] == p1 && r[..43] == p2 && r[..124] == p3;
    assert p1[19] == ']' && p1[20] == ' ' && p1[21] == '[';
    assert p2[40] == ']' && p2[41] == ' ' && p2[42] == '[';
    assert p3[121] == ']' && p3[122] == ' ' && p3[123] == '[';
  }

  /** The column titles sit over the fields of the rows: the header row has
      its separating blanks where every row has them. */
  lemma HeaderSeparators()
    ensures |Banner| == |HeaderRow| == RowWidth
    ensures HeaderRow[20] == HeaderRow[41] == HeaderRow[122] == ' '
  {
    var h1 := PadRight("RouteId", 20);
    var h2 := PadRight("ProcessorId", 20);
    var h3 := PadRight("Processor", 80);
    assert HeaderRow[20] == (h1 + " ")[20];
    assert HeaderRow[41] == (h1 + " " + h2 + " ")[41];
    assert HeaderRow[122] == (h1 + " " + h2 + " " + h3 + " ")[122];
  }

  /** Each column title starts in the column of its field's opening
      bracket in the rows below. */
  lemma HeaderTitles()
    ensures LineAt(HeaderRow, 0, "RouteId")
    ensures LineAt(HeaderRow, 21, "ProcessorId")
    ensures LineAt(HeaderRow, 42, "Processor")
    ensures LineAt(HeaderRow, 123, "Elapsed (ms)")
  {
    var h1 := PadRight("RouteId", 20);
    var h2 := PadRight("ProcessorId", 20);
    var h3 := PadRight("Processor", 80);
    var h4 := PadRight("Elapsed (ms)", 12);
    assert HeaderRow[..7] == h1[..7];
    assert HeaderRow[21..32] == h2[..11];
    assert HeaderRow[42..51] == h3[..9];
    assert HeaderRow[123..135] == h4;
  }

  /** The preamble: a blank line, the title line, the rule on its own line
      and the column titles on their own line, 289 characters in all. */
  lemma PreambleLayout()
    ensures |Preamble| == 289
    ensures StartsWith(Preamble, "\nMessage History\n")
    ensures LineAt(Preamble, 17, Banner) && Preamble[152] == '\n'
    ensures LineAt(Preamble, 153, HeaderRow) && Preamble[288] == '\n'
  {
    HeaderSeparators();
    assert Preamble[..17] == "\nMessage History\n";
    assert Preamble[17..152] == Banner;
    assert Preamble[153..288] == HeaderRow;
  }

  /** Whenever the elapsed time fits its ten characters (from -999999999 to
      9999999999 milliseconds) the number can be read back from the row. */
  lemma {:induction false} ElapsedReadBack(routeId: Option<string>, id: Option<string>, processor: Option<string>, elapsed: int)
    requires |IntToString(elapsed)| <= 10
    ensures IsIntNumeral(TrimLeadingSpaces(ElapsedField(Row(routeId, id, processor, elapsed))))
    ensures ParseInt(TrimLeadingSpaces(ElapsedField(Row(routeId, id, processor, elapsed)))) == elapsed
  {
    var s := IntToString(elapsed);
    ElapsedFieldOfRow(routeId, id, processor, elapsed);
    assert s[0] != ' ' by {
      if elapsed >= 0 {
        assert IsDigit(s[0]);
      }
    }
    TrimFitRight(s, 10);
    IntToStringRoundTrip(elapsed);
  }

  lemma ElapsedFieldOfRow(routeId: Option<string>, id: Option<string>, processor: Option<string>, elapsed: int)
    ensures ElapsedField(Row(routeId, id, processor, elapsed)) == FitRight(IntToString(elapsed), 10)
  {
    RowLayout(FitLeft(JavaText(routeId), 18), FitLeft(JavaText(id), 18),
              FitLeft(JavaText(processor), 78), FitRight(IntToString(elapsed), 10));
  }

  /** What an `ExchangeFormatter` gives back: the text (possibly `null`), or
      the exception it raised. */
  datatype Formatted = Formatted(text: Option<string>) | FormatFailed

  /** The first row, for where the exchange came from: its route id in both
      id columns, the sanitized endpoint URI (empty when there is no
      endpoint) and the milliseconds since the exchange was created (zero
      when no creation time is recorded). The clock reading `now` and the URI
      sanitizer are parameters. */
  function OriginRow(exchange: Exchange, sanitize: string -> string, now: int): (r: string)
    ensures |r| == RowWidth
    ensures RowFrame(r)
    ensures r[1..19] == FitLeft(JavaText(exchange.fromRouteId), 18) && r[22..40] == r[1..19]
    ensures r[43..121] == FitLeft(if exchange.fromEndpointUri.Some? then sanitize(exchange.fromEndpointUri.value) else "", 78)
    ensures ElapsedField(r) == FitRight(IntToString(if exchange.created.Some? then now - exchange.created.value else 0), 10)
  {
    var endpoint := if exchange.fromEndpointUri.Some? then sanitize(exchange.fromEndpointUri.value) else "";
    var elapsed := if exchange.created.Some? then now - exchange.created.value else 0;
    RowColumns(exchange.fromRouteId, exchange.fromRouteId, Some(endpoint), elapsed);
    Row(exchange.fromRouteId, exchange.fromRouteId, Some(endpoint), elapsed)
  }

  /** Whether every entry has a processor node; an entry without one makes
      the table builder dereference `null`. */
  predicate AllHaveNodes(entries: seq<HistoryEntry>) {
    forall i :: 0 <= i < |entries| ==> entries[i].node.Some?
  }

  /** The row for one recorded step. */
  function EntryRow(entry: HistoryEntry): (r: string)
    requires entry.node.Some?
    ensures |r| == RowWidth
  {
    Row(entry.routeId, entry.node.value.id, entry.node.value.nodeLabel, entry.elapsed)
  }

  /** The row for one recorded step holds its route id, the node's id and
      label and the step's elapsed time, each in its own column. */
  lemma EntryRowColumns(entry: HistoryEntry)
    requires entry.node.Some?
    ensures var r := EntryRow(entry);
      && RowFrame(r)
      && r[1..19] == FitLeft(JavaText(entry.routeId), 18)
      && r[22..40] == FitLeft(JavaText(entry.node.value.id), 18)
      && r[43..121] == FitLeft(JavaText(entry.node.value.nodeLabel), 78)
      && ElapsedField(r) == FitRight(IntToString(entry.elapsed), 10)
  {
    RowColumns(entry.routeId, entry.node.value.id, entry.node.value.nodeLabel, entry.elapsed);
  }

  /** The rows of the recorded steps, in the order they were recorded. */
  function EntryRows(entries: seq<HistoryEntry>): (r: seq<string>)
    requires AllHaveNodes(entries)
    ensures |r| == |entries|
    ensures forall i :: 0 <= i < |entries| ==> r[i] == EntryRow(entries[i])
  {
    seq(|entries|, i requires 0 <= i < |entries| => EntryRow(entries[i]))
  }

  lemma EntryRowsSnoc(list: seq<HistoryEntry>, i: nat)
    requires i < |list|
    requires forall j :: 0 <= j <= i ==> list[j].node.Some?
    ensures AllHaveNodes(list[..i]) && AllHaveNodes(list[..i + 1])
    ensures EntryRows(list[..i + 1]) == EntryRows(list[..i]) + [EntryRow(list[i])]
  {
    assert list[..i + 1] == list[..i] + [list[i]];
  }

  /** What follows the rows: the formatted exchange under its own title when
      a formatter is given, then the stack trace title and rule when asked
      for; nothing when neither is. Absent when the formatter fails. */
  function Trailer(formatter: Option<Formatted>, logStackTrace: bool): (r: Option<string>)
    ensures r.None? <==> formatter == Some(FormatFailed)
    ensures formatter.None? && !logStackTrace ==> r == Some("")
    ensures r.Some? ==> |r.value| == (if formatter.Some? then 147 + |JavaText(formatter.value.text)| else 0)
                                    + (if logStackTrace then 147 else 0)
    ensures formatter.Some? && formatter.value.Formatted? ==>
      var t := JavaText(formatter.value.text);
      && StartsWith(r.value, "\nExchange\n" + Banner + "\n")
      && LineAt(r.value, 146, t)
      && LineAt(r.value, 146 + |t|, "\n")
    ensures logStackTrace && r.Some? ==> EndsWith(r.value, "\nStacktrace\n" + Banner)
  {
    if formatter == Some(FormatFailed) then None
    else
      var exchangePart := if formatter.Some? then "\nExchange\n" + Banner + "\n" + JavaText(formatter.value.text) + "\n" else "";
      var tracePart := if logStackTrace then "\nStacktrace\n" + Banner else "";
      TrailerParts(formatter, exchangePart, tracePart);
      Some(exchangePart + tracePart)
  }

  lemma TrailerParts(formatter: Option<Formatted>, exchangePart: string, tracePart: string)
    requires formatter != Some(FormatFailed)
    requires formatter.Some? ==>
      exchangePart == "\nExchange\n" + Banner + "\n" + JavaText(formatter.value.text) + "\n"
    requires formatter.None? ==> exchangePart == ""
    ensures formatter.None? ==> exchangePart + tracePart == tracePart
    ensures formatter.Some? ==>
      var t := JavaText(formatter.value.text);
      && |exchangePart| == 147 + |t|
      && StartsWith(exchangePart + tracePart, "\nExchange\n" + Banner + "\n")
      && LineAt(exchangePart + tracePart, 146, t)
      && LineAt(exchangePart + tracePart, 146 + |t|, "\n")
    ensures EndsWith(exchangePart + tracePart, tracePart)
  {
    EndsWithConcat(exchangePart, tracePart);
    if formatter.Some? {
      var head := "\nExchange\n" + Banner + "\n";
      var t := JavaText(formatter.value.text);
      assert |head| == 146;
      FourParts(head, t, "\n", tracePart);
      var r := exchangePart + tracePart;
      assert r[..146] == r[0..146];
    } else {
      assert exchangePart + tracePart == tracePart;
    }
  }

  /** The outcome of building the table: no history recorded (`null` in the
      source), the table, or an exception raised while building it. */
  datatype Dumped = NoHistory | Table(text: string) | Failed

  /** The table for an exchange with recorded history whose entries all have
      nodes and whose formatter, if any, succeeds. */
  function TableText(exchange: Exchange, formatter: Option<Formatted>, logStackTrace: bool, sanitize: string -> string, now: int): (r: string)
    requires exchange.history.Some? && AllHaveNodes(exchange.history.value)
    requires formatter != Some(FormatFailed)
    ensures StartsWith(r, Preamble)
    ensures EndsWith(r, Trailer(formatter, logStackTrace).value)
  {
    var rows := Terminated(TableRows(exchange, sanitize, now));
    var trailer := Trailer(formatter, logStackTrace).value;
    Enclosed(Preamble, rows, trailer);
    Preamble + rows + trailer
  }

  /** The loop over the history entries: formats each entry in turn, and
      fails at the first entry without a node. */
  method FormatEntries(list: seq<HistoryEntry>) returns (rows: Option<seq<string>>)
    ensures rows.Some? <==> AllHaveNodes(list)
    ensures rows.Some? ==> rows.value == EntryRows(list)
  {
    var acc := [];
    var i := 0;
    assert list[..0] == [];
    while i < |list|
      invariant 0 <= i <= |list|
      invariant forall j :: 0 <= j < i ==> list[j].node.Some?
      invariant AllHaveNodes(list[..i])
      invariant acc == EntryRows(list[..i])
    {
      if list[i].node.None? {
        return None;
      }
      EntryRowsSnoc(list, i);
      acc := acc + [EntryRow(list[i])];
      i := i + 1;
    }
    assert list[..i] == list;
    return Some(acc);
  }

  /** `doDumpMessageHistoryStacktrace`: the preamble and the origin row, then
      one row per history entry, then the trailer; nothing when no history
      is recorded. */
  method DoDumpMessageHistoryStacktrace(exchange: Exchange, formatter: Option<Formatted>, logStackTrace: bool,
                                        sanitize: string -> string, now: int)
    returns (r: Dumped)
    ensures r.NoHistory? <==> exchange.history.None? || |exchange.history.value| == 0
    ensures r.Failed? <==> !r.NoHistory? && (!AllHaveNodes(exchange.history.value) || formatter == Some(FormatFailed))
    ensures r.Table? ==> r.text == TableText(exchange, formatter, logStackTrace, sanitize, now)
  {
    if exchange.history.None? || |exchange.history.value| == 0 {
      return NoHistory;
    }
    var origin := OriginRow(exchange, sanitize, now);
    var entries := FormatEntries(exchange.history.value);
    if entries.None? {
      return Failed;
    }
    var trailer := Trailer(formatter, logStackTrace);
    if trailer.None? {
      return Failed;
    }
    return Table(Preamble + Terminated([origin] + entries.value) + trailer.value);
  }

  /** `dumpMessageHistoryStacktrace`: the table, with any failure turned into
      the empty string; absent (`null`) when there is no history. */
  method DumpMessageHistoryStacktrace(exchange: Exchange, formatter: Option<Formatted>, logStackTrace: bool,
                                      sanitize: string -> string, now: int)
    returns (r: Option<string>)
    ensures r.None? <==> exchange.history.None? || |exchange.history.value| == 0
    ensures r == Some("") <==> r.Some? && (!AllHaveNodes(exchange.history.value) || formatter == Some(FormatFailed))
    ensures r.Some? && r != Some("") ==> r.value == TableText(exchange, formatter, logStackTrace, sanitize, now)
  {
    var d := DoDumpMessageHistoryStacktrace(exchange, formatter, logStackTrace, sanitize, now);
    match d
    case NoHistory => r := None;
    case Failed => r := Some("");
    case Table(text) =>
      assert StartsWith(text, Preamble);
      r := Some(text);
  }

  /** The rows of a table: the origin row, then one row per entry. */
  function TableRows(exchange: Exchange, sanitize: string -> string, now: int): (r: seq<string>)
    requires exchange.history.Some? && AllHaveNodes(exchange.history.value)
    ensures |r| == |exchange.history.value| + 1
    ensures forall j :: 0 <= j < |r| ==> |r[j]| == RowWidth
  {
    [OriginRow(exchange, sanitize, now)] + EntryRows(exchange.history.value)
  }

  /** A table opens with the preamble and then the origin row. */
  lemma TableStart(exchange: Exchange, formatter: Option<Formatted>, logStackTrace: bool, sanitize: string -> string, now: int)
    requires exchange.history.Some? && AllHaveNodes(exchange.history.value)
    requires formatter != Some(FormatFailed)
    ensures var text := TableText(exchange, formatter, logStackTrace, sanitize, now);
      StartsWith(text, Preamble) && LineAt(text, |Preamble|, OriginRow(exchange, sanitize, now))
  {
    var rows := TableRows(exchange, sanitize, now);
    var trailer := Trailer(formatter, logStackTrace).value;
    TerminatedRowWithin(Preamble, rows, trailer, RowWidth, 0);
  }

  /** Every row of a table is as wide as the rule and ends in a newline, so
      the table's length is fixed by the number of history entries and the
      trailer. */
  lemma TableLength(exchange: Exchange, formatter: Option<Formatted>, logStackTrace: bool, sanitize: string -> string, now: int)
    requires exchange.history.Some? && AllHaveNodes(exchange.history.value)
    requires formatter != Some(FormatFailed)
    ensures |TableText(exchange, formatter, logStackTrace, sanitize, now)|
            == |Preamble| + (|exchange.history.value| + 1) * 136 + |Trailer(formatter, logStackTrace).value|
  {
    TerminatedLength(TableRows(exchange, sanitize, now), RowWidth);
  }

  /** A table is the preamble, the origin row and the entry rows, each
      followed by a newline, and the trailer. */
  lemma TableShape(exchange: Exchange, formatter: Option<Formatted>, logStackTrace: bool, sanitize: string -> string, now: int)
    requires exchange.history.Some? && AllHaveNodes(exchange.history.value)
    requires formatter != Some(FormatFailed)
    ensures TableText(exchange, formatter, logStackTrace, sanitize, now)
            == Preamble + Terminated([OriginRow(exchange, sanitize, now)] + EntryRows(exchange.history.value))
               + Trailer(formatter, logStackTrace).value
  {
  }

  /** The entries appear in recorded order: entry `i` is row `i + 1`, found
      at a fixed offset after the preamble. */
  lemma TableEntryRow(exchange: Exchange, formatter: Option<Formatted>, logStackTrace: bool, sanitize: string -> string, now: int, i: nat)
    requires exchange.history.Some? && AllHaveNodes(exchange.history.value)
    requires formatter != Some(FormatFailed)
    requires i < |exchange.history.value|
    ensures LineAt(TableText(exchange, formatter, logStackTrace, sanitize, now),
                   |Preamble| + (i + 1) * 136, EntryRow(exchange.history.value[i]))
  {
    TableShape(exchange, formatter, logStackTrace, sanitize, now);
    EntryRowAt(TableText(exchange, formatter, logStackTrace, sanitize, now), OriginRow(exchange, sanitize, now),
               exchange.history.value, Trailer(formatter, logStackTrace).value, i);
  }

  lemma EntryRowAt(text: string, origin: string, entries: seq<HistoryEntry>, trailer: string, i: nat)
    requires AllHaveNodes(entries) && |origin| == RowWidth && i < |entries|
    requires text == Preamble + Terminated([origin] + EntryRows(entries)) + trailer
    ensures LineAt(text, |Preamble| + (i + 1) * 136, EntryRow(entries[i]))
  {
    RestRowWithin(text, Preamble, origin, EntryRows(entries), trailer, 135, i,
                  |Preamble| + (i + 1) * 136, EntryRow(entries[i]));
  }
}

=== FILE: objects.dfy ===
/**
  The data the diagnostic helpers read: Java object references (only the
  facts about them that the helpers test or print), messages with their
  headers and body, exchanges with the properties the history table reads,
  and history entries.
 */
module Objects {

  datatype Option<+T> = None | Some(value: T) {
    function GetOr(default: T): (r: T)
      ensures Some? ==> r == value
      ensures None? ==> r == default
    {
      match this
      case Some(v) => v
      case None => default
    }
  }

  /** The Java types the body checks test with `instanceof`. An object may be
      an instance of several of them at once: a stream cache that is also an
      `InputStream`, a `StringSource` that is also a `Source`. */
  datatype Kind =
    | Source        // javax.xml.transform.Source
    | StringSource  // org.apache.camel.StringSource (memory based)
    | BytesSource   // org.apache.camel.BytesSource (memory based)
    | StreamCache   // org.apache.camel.StreamCache (resettable)
    | InputStream
    | OutputStream
    | Reader
    | Writer
    | WrappedFile   // org.apache.camel.WrappedFile
    | File          // java.io.File

  /** A Java reference: `null`, or an object described by the types it is an
      instance of, its class's canonical name (absent for classes that have
      none, such as anonymous ones) and what its `toString()` returns (which
      may itself be `null`). */
  datatype Value =
    | Null
    | Instance(kinds: set<Kind>, canonicalName: Option<string>, display: Option<string>)

  /** What string concatenation and `StringBuilder.append` print for a
      possibly-null `String`. */
  function JavaText(s: Option<string>): (r: string)
    ensures s.Some? ==> r == s.value
    ensures s.None? ==> r == "null"
  {
    match s
    case Some(t) => t
    case None => "null"
  }

  /** `String.valueOf(Object)`, as printed by `"..." + obj`. */
  function ValueText(v: Value): string {
    match v
    case Null => "null"
    case Instance(_, _, display) => JavaText(display)
  }

  /** `ObjectHelper.classCanonicalName`: absent for `null`. */
  function CanonicalName(v: Value): (r: Option<string>)
    ensures v.Null? ==> r.None?
    ensures v.Instance? ==> r == v.canonicalName
  {
    match v
    case Null => None
    case Instance(_, name, _) => name
  }

  /** A processor node on a route. */
  datatype Node = Node(id: Option<string>, nodeLabel: Option<string>)

  /** One `MessageHistory` element: `node` is absent when `getNode()` returns
      `null`. */
  datatype HistoryEntry = HistoryEntry(routeId: Option<string>, node: Option<Node>, elapsed: int)

  /** The parts of an exchange the helpers read. `logStreams` and
      `logMaxChars` are the context properties `LOG_DEBUG_BODY_STREAMS` and
      `LOG_DEBUG_BODY_MAX_CHARS` after conversion (absent when not set);
      `created` is the `CREATED_TIMESTAMP` property in milliseconds;
      `history` is the `MESSAGE_HISTORY` property. */
  datatype Exchange = Exchange(
    exchangeId: string,
    logStreams: Option<bool>,
    logMaxChars: Option<int>,
    fromRouteId: Option<string>,
    fromEndpointUri: Option<string>,
    created: Option<int>,
    history: Option<seq<HistoryEntry>>)

  /** A message: its headers (a header may hold `null`), its body, and the
      exchange it belongs to, if any. */
  datatype Message = Message(headers: map<string, Value>, body: Value, exchange: Option<Exchange>)
}

=== FILE: order.dfy ===
/**
  The natural ordering of Java strings (`String.compareTo`) and the ascending
  enumeration of a key set that a `TreeMap` built from a header map yields.
 */
module StringOrder {

  /** `a.compareTo(b) < 0`: the first position where the strings differ
      decides; when one is a proper prefix of the other, the shorter comes
      first. */
  predicate Less(a: string, b: string)
    decreases |a|
  {
    if |a| == 0 then |b| > 0
    else |b| > 0 && (a[0] < b[0] || (a[0] == b[0] && Less(a[1..], b[1..])))
  }

  /** `String.compareTo` as Java computes it: the difference of the first
      pair of characters that differ, or else the difference of the
      lengths. */
  function CompareTo(a: string, b: string): (r: int)
    ensures r == 0 <==> a == b
    decreases |a|
  {
    if |a| == 0 || |b| == 0 then |a| - |b|
    else if a[0] != b[0] then a[0] as int - b[0] as int
    else
      var rest := CompareTo(a[1..], b[1..]);
      assert a == [a[0]] + a[1..] && b == [b[0]] + b[1..];
      rest
  }

  /** `Less` is exactly `a.compareTo(b) < 0`. */
  lemma {:induction false} LessIsCompareToNegative(a: string, b: string)
    ensures Less(a, b) <==> CompareTo(a, b) < 0
    decreases |a|
  {
    if |a| > 0 && |b| > 0 && a[0] == b[0] {
      LessIsCompareToNegative(a[1..], b[1..]);
    }
  }

  lemma {:induction false} LessIrreflexive(a: string)
    ensures !Less(a, a)
    decreases |a|
  {
    if |a| > 0 {
      LessIrreflexive(a[1..]);
    }
  }

  lemma {:induction false} LessAsymmetric(a: string, b: string)
    requires Less(a, b)
    ensures !Less(b, a)
    decreases |a|
  {
    if |a| > 0 && a[0] == b[0] {
      LessAsymmetric(a[1..], b[1..]);
    }
  }

  lemma {:induction false} LessTransitive(a: string, b: string, c: string)
    requires Less(a, b) && Less(b, c)
    ensures Less(a, c)
    decreases |a|
  {
    if |a| > 0 && a[0] == b[0] && b[0] == c[0] {
      LessTransitive(a[1..], b[1..], c[1..]);
    }
  }

  /** Any two different strings are ordered one way or the other. */
  lemma {:induction false} LessTotal(a: string, b: string)
    ensures a == b || Less(a, b) || Less(b, a)
    decreases |a|
  {
    if |a| > 0 && |b| > 0 && a[0] == b[0] {
      LessTotal(a[1..], b[1..]);
      if a[1..] == b[1..] {
        assert a == [a[0]] + a[1..] && b == [b[0]] + b[1..];
      }
    }
  }

  predicate StrictlyAscending(s: seq<string>) {
    forall i, j :: 0 <= i < j < |s| ==> Less(s[i], s[j])
  }

  lemma ConsAscending(m: string, rest: seq<string>)
    requires StrictlyAscending(rest)
    requires forall k :: k in rest ==> Less(m, k)
    ensures StrictlyAscending([m] + rest)
  {
    var r := [m] + rest;
    forall i, j | 0 <= i < j < |r|
      ensures Less(r[i], r[j])
    {
      assert r[j] == rest[j - 1];
      if i > 0 {
        assert r[i] == rest[i - 1];
      }
    }
  }

  /** `m` is the smallest element of `s`. */
  predicate IsLeast(m: string, s: set<string>) {
    m in s && forall y :: y in s && y != m ==> Less(m, y)
  }

  lemma {:induction false} LeastExists(s: set<string>)
    requires s != {}
    ensures exists m :: IsLeast(m, s)
    decreases |s|
  {
    var x :| x in s;
    if s == {x} {
      assert IsLeast(x, s);
    } else {
      LeastExists(s - {x});
      var m :| IsLeast(m, s - {x});
      LessTotal(x, m);
      if Less(x, m) {
        forall y | y in s && y != x
          ensures Less(x, y)
        {
          if y != m {
            LessTransitive(x, m, y);
          }
        }
        assert IsLeast(x, s);
      } else {
        assert IsLeast(m, s);
      }
    }
  }

  lemma LeastUnique(s: set<string>)
    ensures forall m1, m2 :: IsLeast(m1, s) && IsLeast(m2, s) ==> m1 == m2
  {
    forall m1, m2 | IsLeast(m1, s) && IsLeast(m2, s)
      ensures m1 == m2
    {
      if m1 != m2 {
        LessAsymmetric(m1, m2);
      }
    }
  }

  /** The keys of `s` in ascending order, each exactly once: the iteration
      order of a `TreeMap` holding those keys. */
  function SortedKeys(s: set<string>): (r: seq<string>)
    ensures StrictlyAscending(r)
    ensures |r| == |s|
    ensures forall k :: k in r <==> k in s
    decreases |s|
  {
    if s == {} then []
    else
      LeastExists(s);
      LeastUnique(s);
      var m :| IsLeast(m, s);
      var rest := SortedKeys(s - {m});
      ConsAscending(m, rest);
      [m] + rest
  }

  /** A strictly ascending sequence never repeats an element. */
  lemma AscendingDistinct(s: seq<string>)
    requires StrictlyAscending(s)
    ensures forall i, j :: 0 <= i < j < |s| ==> s[i] != s[j]
  {
    forall i, j | 0 <= i < j < |s|
      ensures s[i] != s[j]
    {
      LessIrreflexive(s[i]);
    }
  }

  /** There is only one ascending enumeration of a set of keys: any strictly
      ascending sequence holding exactly the keys of `s` is `SortedKeys(s)`. */
  lemma {:induction false} AscendingUnique(a: seq<string>, b: seq<string>)
    requires StrictlyAscending(a) && StrictlyAscending(b)
    requires forall k :: k in a <==> k in b
    ensures a == b
    decreases |a| + |b|, if |a| == 0 then 1 else 0
  {
    if |a| > 0 {
      assert a[0] in b;
      assert b != [];
      assert b[0] in a;
      if a[0] != b[0] {
        var i :| 0 <= i < |a| && a[i] == b[0];
        var j :| 0 <= j < |b| && b[j] == a[0];
        assert Less(a[0], a[i]);
        assert Less(b[0], b[j]);
        LessAsymmetric(a[0], b[0]);
      }
      AscendingDistinct(a);
      AscendingDistinct(b);
      forall k
        ensures k in a[1..] <==> k in b[1..]
      {
        if k in a[1..] {
          var i :| 0 <= i < |a[1..]| && a[1..][i] == k;
          assert a[i + 1] == k;
          assert k in b;
          assert k != b[0];
        }
        if k in b[1..] {
          var i :| 0 <= i < |b[1..]| && b[1..][i] == k;
          assert b[i + 1] == k;
          assert k in a;
          assert k != a[0];
        }
      }
      AscendingUnique(a[1..], b[1..]);
      assert a == [a[0]] + a[1..] && b == [b[0]] + b[1..];
    } else if |b| > 0 {
      AscendingUnique(b, a);
    }
  }

  lemma SortedKeysIsTheAscendingEnumeration(s: set<string>, keys: seq<string>)
    requires StrictlyAscending(keys)
    requires forall k :: k in keys <==> k in s
    ensures keys == SortedKeys(s)
  {
    AscendingUnique(keys, SortedKeys(s));
  }
}

=== FILE: text.dfy ===
/**
  String building blocks shared by the diagnostic formatters: space padding,
  the `%-w.ws` / `%w.ws` field formats of `java.util.Formatter`, Java's
  decimal rendering of an `int`/`long` (with its parser, so that the rendering
  is known to lose nothing), and line joining.
 */
module Text {

  predicate StartsWith(s: string, prefix: string) {
    |prefix| <= |s| && s[..|prefix|] == prefix
  }

  predicate AllSpaces(s: string) {
    forall i :: 0 <= i < |s| ==> s[i] == ' '
  }

  /** `n` space characters; a count that is not positive gives nothing, as a
      `for (i = 0; i < n; i++)` loop does. */
  function Spaces(n: int): (r: string)
    ensures |r| == if n <= 0 then 0 else n
    ensures AllSpaces(r)
  {
    if n <= 0 then "" else seq(n, i => ' ')
  }

  /** `%-ws`: left-justified in a field of at least `w` characters; never cut. */
  function PadRight(s: string, w: nat): (r: string)
    ensures |r| == if |s| < w then w else |s|
    ensures StartsWith(r, s)
    ensures AllSpaces(r[|s|..])
  {
    if |s| < w then s + Spaces(w - |s|) else s
  }

  /** `%-w.ws`: cut to at most `w` characters, then left-justified in exactly
      `w` characters. */
  function FitLeft(s: string, w: nat): (r: string)
    ensures |r| == w
    ensures |s| <= w ==> StartsWith(r, s) && AllSpaces(r[|s|..])
    ensures w <= |s| ==> r == s[..w]
  {
    PadRight(if |s| <= w then s else s[..w], w)
  }

  /** `%w.ws`: cut to at most `w` characters, then right-justified in exactly
      `w` characters. */
  function FitRight(s: string, w: nat): (r: string)
    ensures |r| == w
    ensures |s| <= w ==> r[w - |s|..] == s && AllSpaces(r[..w - |s|])
    ensures w <= |s| ==> r == s[..w]
  {
    if w <= |s| then s[..w] else Spaces(w - |s|) + s
  }

  // ----- decimal rendering (Integer.toString / Long.toString) -----

  predicate IsDigit(c: char) {
    '0' <= c <= '9'
  }

  predicate AllDigits(s: string) {
    forall i :: 0 <= i < |s| ==> IsDigit(s[i])
  }

  /** A decimal numeral as Java prints one: digits, no leading zero unless the
      numeral is "0" itself. */
  predicate CanonicalNumeral(s: string) {
    |s| > 0 && AllDigits(s) && (s[0] == '0' ==> |s| == 1)
  }

  function DigitChar(d: nat): (c: char)
    requires d < 10
    ensures IsDigit(c)
  {
    ('0' as int + d) as char
  }

  function DigitValue(c: char): (d: nat)
    requires IsDigit(c)
    ensures d < 10
  {
    c as int - '0' as int
  }

  function NatToString(n: nat): (r: string)
    ensures CanonicalNumeral(r)
    ensures r[0] == '0' <==> n == 0
    decreases n
  {
    if n < 10 then [DigitChar(n)] else NatToString(n / 10) + [DigitChar(n % 10)]
  }

  /** Value of a string of decimal digits, most significant first. */
  function ParseNat(s: string): nat
    requires AllDigits(s)
    decreases |s|
  {
    if |s| == 0 then 0 else ParseNat(s[..|s| - 1]) * 10 + DigitValue(s[|s| - 1])
  }

  /** `String.valueOf` of a Java `int` or `long`. */
  function IntToString(n: int): (r: string)
    ensures |r| > 0
    ensures n < 0 <==> r[0] == '-'
    ensures n < 0 ==> CanonicalNumeral(r[1..])
    ensures 0 <= n ==> CanonicalNumeral(r)
  {
    if n < 0 then "-" + NatToString(-n) else NatToString(n)
  }

  predicate IsIntNumeral(s: string) {
    |s| > 0 && if s[0] == '-' then AllDigits(s[1..]) else AllDigits(s)
  }

  function ParseInt(s: string): int
    requires IsIntNumeral(s)
  {
    if s[0] == '-' then 0 - ParseNat(s[1..]) else ParseNat(s)
  }

  lemma {:induction false} ParseNatOfNatToString(n: nat)
    ensures ParseNat(NatToString(n)) == n
    decreases n
  {
    if n >= 10 {
      ParseNatOfNatToString(n / 10);
      var p := NatToString(n / 10);
      var s := p + [DigitChar(n % 10)];
      assert s[..|s| - 1] == p;
    }
  }

  /** Every canonical numeral is the rendering of its own value: the rendering
      is onto the canonical numerals and parsing is its exact inverse. */
  lemma {:induction false} NatToStringOfParseNat(s: string)
    requires CanonicalNumeral(s)
    ensures NatToString(ParseNat(s)) == s
    decreases |s|
  {
    if |s| > 1 {
      var p := s[..|s| - 1];
      assert p[0] == s[0];
      assert CanonicalNumeral(p);
      NatToStringOfParseNat(p);
      var q := ParseNat(p);
      var d := DigitValue(s[|s| - 1]);
      var n := q * 10 + d;
      assert n / 10 == q && n % 10 == d;
      assert DigitChar(d) == s[|s| - 1];
      assert s == p + [s[|s| - 1]];
    }
  }

  lemma IntToStringRoundTrip(n: int)
    ensures IsIntNumeral(IntToString(n))
    ensures ParseInt(IntToString(n)) == n
  {
    var r := IntToString(n);
    if n < 0 {
      assert r[1..] == NatToString(-n);
      ParseNatOfNatToString(-n);
    } else {
      ParseNatOfNatToString(n);
    }
  }

  // ----- lines -----

  /** The lines separated by single newlines, with no newline after the last
      one: what a `StringBuilder` holds after appending `line + "\n"` for all
      lines but the last. */
  function JoinLines(lines: seq<string>): string
    decreases |lines|
  {
    if |lines| == 0 then ""
    else if |lines| == 1 then lines[0]
    else lines[0] + "\n" + JoinLines(lines[1..])
  }

  /** The lines, each followed by a newline. */
  function Terminated(lines: seq<string>): (r: string)
    decreases |lines|
  {
    if |lines| == 0 then "" else lines[0] + "\n" + Terminated(lines[1..])
  }

  lemma {:induction false} JoinLinesBounds(lines: seq<string>)
    requires |lines| > 0
    ensures StartsWith(JoinLines(lines), lines[0])
    ensures EndsWith(JoinLines(lines), lines[|lines| - 1])
    decreases |lines|
  {
    if |lines| > 1 {
      JoinLinesBounds(lines[1..]);
      var rest := JoinLines(lines[1..]);
      var r := lines[0] + "\n" + rest;
      assert r[..|lines[0]|] == lines[0];
      assert r[|r| - |rest|..] == rest;
      assert rest[|rest| - |lines[|lines| - 1]|..] == lines[|lines| - 1];
      assert r[|r| - |lines[|lines| - 1]|..] == rest[|rest| - |lines[|lines| - 1]|..];
    }
  }

  predicate EndsWith(s: string, suffix: string) {
    |suffix| <= |s| && s[|s| - |suffix|..] == suffix
  }

  lemma {:induction false} TerminatedLength(rows: seq<string>, w: nat)
    requires forall i :: 0 <= i < |rows| ==> |rows[i]| == w
    ensures |Terminated(rows)| == |rows| * (w + 1)
    decreases |rows|
  {
    if |rows| > 0 {
      TerminatedLength(rows[1..], w);
    }
  }

  /** In lines of one width `w`, line `i` is found at offset `i * (w + 1)`,
      followed by its newline. */
  lemma {:induction false} TerminatedRowAt(rows: seq<string>, w: nat, i: nat)
    requires forall j :: 0 <= j < |rows| ==> |rows[j]| == w
    requires i < |rows|
    ensures i * (w + 1) + w < |Terminated(rows)|
    ensures Terminated(rows)[i * (w + 1)..i * (w + 1) + w] == rows[i]
    ensures Terminated(rows)[i * (w + 1) + w] == '\n'
    decreases i
  {
    var t := Terminated(rows);
    var rest := Terminated(rows[1..]);
    assert t == rows[0] + "\n" + rest;
    if i > 0 {
      TerminatedRowAt(rows[1..], w, i - 1);
      var k := (i - 1) * (w + 1);
      assert i * (w + 1) == k + (w + 1);
      assert t[k + (w + 1)..k + (w + 1) + w] == rest[k..k + w];
    }
  }

  /** The string with its leading spaces removed. */
  function TrimLeadingSpaces(s: string): (r: string)
    ensures |r| <= |s| && r == s[|s| - |r|..]
    ensures |r| > 0 ==> r[0] != ' '
    ensures AllSpaces(s[..|s| - |r|])
  {
    if |s| > 0 && s[0] == ' ' then TrimLeadingSpaces(s[1..]) else s
  }

  /** Removing the leading spaces undoes right-justification of a string that
      does not itself start with a space. */
  lemma {:induction false} TrimPadding(pad: string, s: string)
    requires AllSpaces(pad)
    requires |s| > 0 && s[0] != ' '
    ensures TrimLeadingSpaces(pad + s) == s
    decreases |pad|
  {
    if |pad| > 0 {
      assert (pad + s)[1..] == pad[1..] + s;
      TrimPadding(pad[1..], s);
    } else {
      assert pad + s == s;
    }
  }

  /** `text` holds `line` starting at offset `at`. */
  predicate LineAt(text: string, at: nat, line: string) {
    at + |line| <= |text| && text[at..at + |line|] == line
  }

  /** The same, for the lines placed between a leading and a trailing text. */
  lemma TerminatedRowWithin(pre: string, rows: seq<string>, post: string, w: nat, i: nat)
    requires forall j :: 0 <= j < |rows| ==> |rows[j]| == w
    requires i < |rows|
    ensures LineAt(pre + Terminated(rows) + post, |pre| + i * (w + 1), rows[i])
  {
    var t := Terminated(rows);
    var k := i * (w + 1);
    TerminatedRowAt(rows, w, i);
    assert (pre + t + post)[|pre| + k..|pre| + k + w] == t[k..k + w];
  }

  /** Rows after a leading row of the same width: row `i` of the rest sits
      one row further on. */
  lemma RestRowWithin(text: string, pre: string, first: string, rest: seq<string>, post: string,
                      w: nat, i: nat, at: nat, line: string)
    requires text == pre + Terminated([first] + rest) + post
    requires |first| == w
    requires forall j :: 0 <= j < |rest| ==> |rest[j]| == w
    requires i < |rest| && line == rest[i]
    requires at == |pre| + (i + 1) * (w + 1)
    ensures LineAt(text, at, line)
  {
    var rows := [first] + rest;
    forall j | 0 <= j < |rows|
      ensures |rows[j]| == w
    {
      if j > 0 {
        ConsAt(first, rest, j - 1);
      }
    }
    ConsAt(first, rest, i);
    TerminatedRowWithin(pre, rows, post, w, i + 1);
  }

  /** Both parts of a concatenation, at their offsets. */
  lemma Split(a: string, b: string)
    ensures LineAt(a + b, 0, a) && LineAt(a + b, |a|, b)
  {
    assert (a + b)[..|a|] == a;
    assert (a + b)[|a|..|a| + |b|] == b;
  }

  /** A line inside a line inside a text is inside the text. */
  lemma LineAtIn(outer: string, at1: nat, mid: string, at2: nat, inner: string, at: nat)
    requires LineAt(outer, at1, mid) && LineAt(mid, at2, inner) && at == at1 + at2
    ensures LineAt(outer, at, inner)
  {
    forall k | 0 <= k < |inner|
      ensures outer[at1 + at2 + k] == inner[k]
    {
      assert outer[at1..at1 + |mid|][at2 + k] == mid[at2 + k];
      assert mid[at2..at2 + |inner|][k] == inner[k];
    }
    assert outer[at1 + at2..at1 + at2 + |inner|] == inner;
  }

  /** Two lines of the same length at the same offset are the same line. */
  lemma SameLineAt(text: string, at: nat, a: string, b: string)
    requires |a| == |b| && LineAt(text, at, a) && LineAt(text, at, b)
    ensures a == b
  {
  }

  /** Where each part of `p1 + p2 + p3 + p4` sits. */
  lemma FourParts(p1: string, p2: string, p3: string, p4: string)
    ensures var q := p1 + p2 + p3 + p4;
      && |q| == |p1| + |p2| + |p3| + |p4|
      && LineAt(q, 0, p1)
      && LineAt(q, |p1|, p2)
      && LineAt(q, |p1| + |p2|, p3)
      && LineAt(q, |p1| + |p2| + |p3|, p4)
  {
    var q1 := p1 + p2;
    var q2 := q1 + p3;
    var q3 := q2 + p4;
    Split(p1, p2);
    Split(q1, p3);
    Split(q2, p4);
    LineAtIn(q3, 0, q2, 0, q1, 0);
    LineAtIn(q3, 0, q1, 0, p1, 0);
    LineAtIn(q3, 0, q1, |p1|, p2, |p1|);
    LineAtIn(q3, 0, q2, |q1|, p3, |p1| + |p2|);
  }

  /** Where each part of `p1 + p2 + p3 + p4 + p5` sits. */
  lemma FiveParts(p1: string, p2: string, p3: string, p4: string, p5: string)
    ensures var q := p1 + p2 + p3 + p4 + p5;
      && |q| == |p1| + |p2| + |p3| + |p4| + |p5|
      && LineAt(q, 0, p1)
      && LineAt(q, |p1|, p2)
      && LineAt(q, |p1| + |p2|, p3)
      && LineAt(q, |p1| + |p2| + |p3|, p4)
      && LineAt(q, |p1| + |p2| + |p3| + |p4|, p5)
  {
    var q1 := p1 + p2;
    var q2 := q1 + p3;
    var q3 := q2 + p4;
    var q4 := q3 + p5;
    Split(p1, p2);
    Split(q1, p3);
    Split(q2, p4);
    Split(q3, p5);
    LineAtIn(q3, 0, q2, 0, q1, 0);
    LineAtIn(q4, 0, q3, 0, q1, 0);
    LineAtIn(q4, 0, q1, 0, p1, 0);
    LineAtIn(q4, 0, q1, |p1|, p2, |p1|);
    LineAtIn(q4, 0, q3, 0, q2, 0);
    LineAtIn(q4, 0, q2, |q1|, p3, |p1| + |p2|);
    LineAtIn(q4, 0, q3, |q2|, p4, |p1| + |p2| + |p3|);
  }

  /** Where each part of `p1 + p2 + p3 + p4 + p5 + p6` sits. */
  lemma SixParts(p1: string, p2: string, p3: string, p4: string, p5: string, p6: string)
    ensures var q := p1 + p2 + p3 + p4 + p5 + p6;
      && |q| == |p1| + |p2| + |p3| + |p4| + |p5| + |p6|
      && LineAt(q, 0, p1)
      && LineAt(q, |p1|, p2)
      && LineAt(q, |p1| + |p2|, p3)
      && LineAt(q, |p1| + |p2| + |p3|, p4)
      && LineAt(q, |p1| + |p2| + |p3| + |p4|, p5)
      && LineAt(q, |p1| + |p2| + |p3| + |p4| + |p5|, p6)
  {
    var q5 := p1 + p2 + p3 + p4 + p5;
    FiveParts(p1, p2, p3, p4, p5);
    Split(q5, p6);
    LineAtIn(q5 + p6, 0, q5, 0, p1, 0);
    LineAtIn(q5 + p6, 0, q5, |p1|, p2, |p1|);
    LineAtIn(q5 + p6, 0, q5, |p1| + |p2|, p3, |p1| + |p2|);
    LineAtIn(q5 + p6, 0, q5, |p1| + |p2| + |p3|, p4, |p1| + |p2| + |p3|);
    LineAtIn(q5 + p6, 0, q5, |p1| + |p2| + |p3| + |p4|, p5, |p1| + |p2| + |p3| + |p4|);
  }

  /** `open + x + close` starts with `open` and ends with `close`. */
  lemma Enclosed(open: string, x: string, close: string)
    ensures StartsWith(open + x + close, open)
    ensures EndsWith(open + x + close, close)
  {
    assert (open + x + close)[..|open|] == open;
    assert (open + x + close)[|open + x|..] == close;
  }

  lemma StartsWithConcat(a: string, b: string)
    ensures StartsWith(a + b, a)
  {
    assert (a + b)[..|a|] == a;
  }

  lemma EndsWithConcat(a: string, b: string)
    ensures EndsWith(a + b, b)
  {
    assert (a + b)[|a|..] == b;
  }

  /** Right-justifying a string that does not start with a space can be
      undone by trimming, as long as the string fits. */
  lemma TrimFitRight(s: string, w: nat)
    requires 0 < |s| <= w && s[0] != ' '
    ensures TrimLeadingSpaces(FitRight(s, w)) == s
  {
    var f := FitRight(s, w);
    assert f == f[..w - |s|] + s;
    TrimPadding(f[..w - |s|], s);
  }

  lemma ConsAt<T>(x: T, a: seq<T>, i: nat)
    requires i < |a|
    ensures ([x] + a)[i + 1] == a[i]
  {
  }

}

=== FILE: xml_dump.dfy ===
/**
  The generic XML dump of a message: a `<message>` element holding, when
  present, a `<headers>` block with one `<header>` element per header in
  ascending key order, and, when asked for, a `<body>` element whose text is
  the logging extraction of the body.
 */
module XmlDump {
  import opened Objects
  import opened Text
  import opened StringOrder
  import BodyText

  /** Clipping limit of the dump overloads that do not take one: 128 * 1024. */
  const DumpMaxChars: int := 128 * 1024

  /** ` type="..."` for a value with a canonical class name, nothing
      otherwise. The name is used as it is: `java.lang.` is not stripped. */
  function TypeAttribute(name: Option<string>): (r: string)
    ensures name.None? <==> |r| == 0
    ensures name.Some? ==> StartsWith(r, " type=\"") && LineAt(r, 7, name.value) && EndsWith(r, "\"")
  {
    match name
    case None => ""
    case Some(t) => " type=\"" + t + "\""
  }

  /** Element text of a header value: the escaped conversion to a string, or
      nothing when the value is `null` or the conversion fails or gives
      `null`. */
  function HeaderContent(v: Value, convert: Value -> Option<string>, escape: string -> string): (r: string)
    ensures v.Null? || convert(v).None? ==> r == ""
    ensures v.Instance? && convert(v).Some? ==> r == escape(convert(v).value)
  {
    match v
    case Null => ""
    case Instance(_, _, _) =>
      match convert(v)
      case None => ""
      case Some(text) => escape(text)
  }

  /** Every line starts with `prefix`. */
  predicate AllIndented(lines: seq<string>, prefix: string) {
    forall i :: 0 <= i < |lines| ==> StartsWith(lines[i], prefix)
  }

  /** One header element; the key is written as it is, without escaping. */
  function HeaderLine(prefix: string, key: string, v: Value, convert: Value -> Option<string>,
                      escape: string -> string): (r: string)
    ensures StartsWith(r, prefix)
  {
    var tail := ">" + HeaderContent(v, convert, escape) + "</header>";
    var r := prefix + "    <header key=\"" + key + "\"" + TypeAttribute(CanonicalName(v)) + tail;
    assert r[..|prefix|] == prefix;
    r
  }

  /** The layout of a header element: after the indentation, the opening of
      the tag, the key, its closing quote, the type attribute, and the
      element text with the closing tag. Together the clauses fix every
      character of the line. */
  lemma HeaderLineLayout(prefix: string, key: string, v: Value, convert: Value -> Option<string>,
                         escape: string -> string)
    ensures var r := HeaderLine(prefix, key, v, convert, escape);
      var attr := TypeAttribute(CanonicalName(v));
      var tail := ">" + HeaderContent(v, convert, escape) + "</header>";
      && |r| == |prefix| + 18 + |key| + |attr| + |tail|
      && LineAt(r, |prefix|, "    <header key=\"")
      && LineAt(r, |prefix| + 17, key)
      && r[|prefix| + 17 + |key|] == '"'
      && LineAt(r, |prefix| + 18 + |key|, attr)
      && EndsWith(r, tail)
  {
    var open := "    <header key=\"";
    var attr := TypeAttribute(CanonicalName(v));
    var tail := ">" + HeaderContent(v, convert, escape) + "</header>";
    var r := prefix + open + key + "\"" + attr + tail;
    assert |open| == 17;
    assert r == HeaderLine(prefix, key, v, convert, escape);
    SixParts(prefix, open, key, "\"", attr, tail);
    EndsWithConcat(prefix + open + key + "\"" + attr, tail);
  }

  function HeaderLines(prefix: string, keys: seq<string>, headers: map<string, Value>,
                       convert: Value -> Option<string>, escape: string -> string): (r: seq<string>)
    requires forall k :: k in keys ==> k in headers
    ensures |r| == |keys|
    ensures forall i :: 0 <= i < |keys| ==> r[i] == HeaderLine(prefix, keys[i], headers[keys[i]], convert, escape)
    ensures AllIndented(r, prefix)
  {
    seq(|keys|, i requires 0 <= i < |keys| => HeaderLine(prefix, keys[i], headers[keys[i]], convert, escape))
  }

  /** The header elements of a message, in ascending key order. */
  function HeaderElements(prefix: string, m: Message, convert: Value -> Option<string>,
                          escape: string -> string): (r: seq<string>)
    ensures |r| == |m.headers|
    ensures AllIndented(r, prefix)
  {
    assert |m.headers.Keys| == |m.headers|;
    HeaderLines(prefix, SortedKeys(m.headers.Keys), m.headers, convert, escape)
  }

  /** The `<headers>` block: nothing for a message without headers,
      otherwise the opening tag, one element per header and the closing tag. */
  function HeadersBlock(prefix: string, m: Message, convert: Value -> Option<string>,
                        escape: string -> string): (r: seq<string>)
    ensures |r| == if |m.headers| == 0 then 0 else |m.headers| + 2
  {
    if |m.headers| == 0 then []
    else [prefix + "  <headers>"] + HeaderElements(prefix, m, convert, escape) + [prefix + "  </headers>"]
  }

  /** A non-empty block is the opening tag, the header elements in
      ascending key order, and the closing tag. */
  lemma HeadersBlockShape(prefix: string, m: Message, convert: Value -> Option<string>, escape: string -> string)
    requires |m.headers| > 0
    ensures HeadersBlock(prefix, m, convert, escape)
            == [prefix + "  <headers>"] + HeaderElements(prefix, m, convert, escape) + [prefix + "  </headers>"]
  {
  }

  lemma HeadersBlockIndented(prefix: string, m: Message, convert: Value -> Option<string>, escape: string -> string)
    ensures AllIndented(HeadersBlock(prefix, m, convert, escape), prefix)
  {
    if |m.headers| > 0 {
      var elements := HeaderElements(prefix, m, convert, escape);
      HeadersBlockShape(prefix, m, convert, escape);
      FrameIndented(prefix, "  <headers>", elements, [], "  </headers>");
      assert [prefix + "  <headers>"] + elements + [] + [prefix + "  </headers>"]
          == [prefix + "  <headers>"] + elements + [prefix + "  </headers>"];
    }
  }

  /** Between the `<headers>` tags there is one element per header key, the
      keys strictly ascending (the order of a `TreeMap`), each key exactly
      once. */
  lemma HeadersBlockElements(prefix: string, m: Message, convert: Value -> Option<string>, escape: string -> string)
    requires |m.headers| > 0
    ensures var r := HeadersBlock(prefix, m, convert, escape);
      && r[0] == prefix + "  <headers>"
      && r[|r| - 1] == prefix + "  </headers>"
      && var keys := SortedKeys(m.headers.Keys);
         forall i :: 0 <= i < |keys| ==>
              r[i + 1] == HeaderLine(prefix, keys[i], m.headers[keys[i]], convert, escape)
  {
    var open := prefix + "  <headers>";
    var close := prefix + "  </headers>";
    var keys := SortedKeys(m.headers.Keys);
    var lines := HeaderElements(prefix, m, convert, escape);
    assert lines == HeaderLines(prefix, keys, m.headers, convert, escape);
    HeadersBlockShape(prefix, m, convert, escape);
    Framed(open, lines, close, HeadersBlock(prefix, m, convert, escape));
  }

  lemma Framed<T>(open: T, a: seq<T>, close: T, r: seq<T>)
    requires r == [open] + a + [close]
    ensures |r| == |a| + 2 && r[0] == open && r[|r| - 1] == close
    ensures forall i :: 0 <= i < |a| ==> r[i + 1] == a[i]
  {
  }

  /** A `<body>` element with the given type name and (unescaped) text. */
  function BodyElement(prefix: string, typeName: Option<string>, text: string, escape: string -> string): (r: string)
    ensures StartsWith(r, prefix)
  {
    var r := prefix + "  <body" + TypeAttribute(typeName) + (">" + escape(text) + "</body>");
    assert r[..|prefix|] == prefix;
    r
  }

  /** The layout of a `<body>` element: after the indentation, the opening of
      the tag, the type attribute, and the escaped text with the closing tag.
      Together the clauses fix every character of the line. */
  lemma BodyElementLayout(prefix: string, typeName: Option<string>, text: string, escape: string -> string)
    ensures var r := BodyElement(prefix, typeName, text, escape);
      var attr := TypeAttribute(typeName);
      var tail := ">" + escape(text) + "</body>";
      && |r| == |prefix| + 7 + |attr| + |tail|
      && LineAt(r, |prefix|, "  <body")
      && LineAt(r, |prefix| + 7, attr)
      && EndsWith(r, tail)
  {
    var open := "  <body";
    var attr := TypeAttribute(typeName);
    var tail := ">" + escape(text) + "</body>";
    var r := prefix + open + attr + tail;
    assert |open| == 7;
    assert r == BodyElement(prefix, typeName, text, escape);
    FourParts(prefix, open, attr, tail);
    EndsWithConcat(prefix + open + attr, tail);
  }

  /** The `<body>` element of a message: its text is the logging extraction of
      the body with an empty prefix. */
  function BodyLine(prefix: string, m: Message, allowStreams: bool, allowFiles: bool, maxChars: int,
                    convert: Value -> Option<string>, escape: string -> string): (r: string)
    ensures StartsWith(r, prefix)
  {
    BodyElement(prefix, CanonicalName(m.body),
                BodyText.ExtractBodyForLogging(m, "", allowStreams, allowFiles, maxChars, convert).text, escape)
  }

  /** The body element names the body's class in its type attribute and holds
      the escaped logging extraction of the body. */
  lemma BodyLineLayout(prefix: string, m: Message, allowStreams: bool, allowFiles: bool, maxChars: int,
                       convert: Value -> Option<string>, escape: string -> string)
    ensures var r := BodyLine(prefix, m, allowStreams, allowFiles, maxChars, convert, escape);
      var text := BodyText.ExtractBodyForLogging(m, "", allowStreams, allowFiles, maxChars, convert).text;
      && LineAt(r, |prefix|, "  <body")
      && LineAt(r, |prefix| + 7, TypeAttribute(CanonicalName(m.body)))
      && EndsWith(r, ">" + escape(text) + "</body>")
  {
    BodyElementLayout(prefix, CanonicalName(m.body),
                      BodyText.ExtractBodyForLogging(m, "", allowStreams, allowFiles, maxChars, convert).text, escape);
  }

  /** The opening `<message>` tag, without indentation. */
  function OpenTag(exchangeId: string): string {
    "<message exchangeId=\"" + exchangeId + "\">"
  }

  /** The body element when it is asked for, nothing otherwise. */
  function BodyLines(prefix: string, m: Message, includeBody: bool, allowStreams: bool, allowFiles: bool,
                     maxChars: int, convert: Value -> Option<string>, escape: string -> string): (r: seq<string>)
    ensures |r| == if includeBody then 1 else 0
    ensures AllIndented(r, prefix)
  {
    if includeBody then [BodyLine(prefix, m, allowStreams, allowFiles, maxChars, convert, escape)] else []
  }

  /** The lines of the dump, in order: the opening `<message>` tag, the
      headers block, the body element, the closing tag. */
  function DumpLines(m: Message, includeBody: bool, indent: int, allowStreams: bool, allowFiles: bool,
                     maxChars: int, convert: Value -> Option<string>, escape: string -> string): (lines: seq<string>)
    requires m.exchange.Some?
    ensures |lines| == 2 + (if |m.headers| == 0 then 0 else |m.headers| + 2) + (if includeBody then 1 else 0)
    ensures lines[0] == Spaces(indent) + "<message exchangeId=\"" + m.exchange.value.exchangeId + "\">"
    ensures lines[|lines| - 1] == Spaces(indent) + "</message>"
  {
    var prefix := Spaces(indent);
    var body := BodyLines(prefix, m, includeBody, allowStreams, allowFiles, maxChars, convert, escape);
    assert prefix + OpenTag(m.exchange.value.exchangeId)
        == prefix + "<message exchangeId=\"" + m.exchange.value.exchangeId + "\">";
    [prefix + OpenTag(m.exchange.value.exchangeId)]
      + HeadersBlock(prefix, m, convert, escape) + body + [prefix + "</message>"]
  }

  /** Every line of the dump starts with `indent` spaces. */
  lemma DumpLinesIndented(m: Message, includeBody: bool, indent: int, allowStreams: bool, allowFiles: bool,
                          maxChars: int, convert: Value -> Option<string>, escape: string -> string)
    requires m.exchange.Some?
    ensures AllIndented(DumpLines(m, includeBody, indent, allowStreams, allowFiles, maxChars, convert, escape), Spaces(indent))
  {
    var prefix := Spaces(indent);
    var headers := HeadersBlock(prefix, m, convert, escape);
    var body := BodyLines(prefix, m, includeBody, allowStreams, allowFiles, maxChars, convert, escape);
    HeadersBlockIndented(prefix, m, convert, escape);
    FrameIndented(prefix, OpenTag(m.exchange.value.exchangeId), headers, body, "</message>");
  }

  /** Lines framed by two tags indented by `prefix` are indented when the
      lines between them are. */
  lemma FrameIndented(prefix: string, open: string, a: seq<string>, b: seq<string>, close: string)
    requires AllIndented(a, prefix) && AllIndented(b, prefix)
    ensures AllIndented([prefix + open] + a + b + [prefix + close], prefix)
  {
    var lines := [prefix + open] + a + b + [prefix + close];
    StartsWithConcat(prefix, open);
    StartsWithConcat(prefix, close);
    forall i | 0 <= i < |lines|
      ensures StartsWith(lines[i], prefix)
    {
      if 0 < i <= |a| {
        assert lines[i] == a[i - 1];
      } else if |a| < i < |lines| - 1 {
        assert lines[i] == b[i - 1 - |a|];
      }
    }
  }

  /** The dump's lines after the opening tag are the headers block. */
  lemma DumpHeaderElements(m: Message, includeBody: bool, indent: int, allowStreams: bool, allowFiles: bool,
                           maxChars: int, convert: Value -> Option<string>, escape: string -> string)
    requires m.exchange.Some?
    ensures var lines := DumpLines(m, includeBody, indent, allowStreams, allowFiles, maxChars, convert, escape);
      var block := HeadersBlock(Spaces(indent), m, convert, escape);
      forall i :: 0 <= i < |block| ==> lines[i + 1] == block[i]
  {
    var prefix := Spaces(indent);
    var body := BodyLines(prefix, m, includeBody, allowStreams, allowFiles, maxChars, convert, escape);
    FrameMiddle(prefix + OpenTag(m.exchange.value.exchangeId),
                HeadersBlock(prefix, m, convert, escape), body, prefix + "</message>");
  }

  /** The line after the opening tag is the `<headers>` tag exactly when the
      message has headers: no other line of the dump can be mistaken for
      it. */
  lemma HeadersBlockPresent(m: Message, includeBody: bool, indent: int, allowStreams: bool, allowFiles: bool,
                            maxChars: int, convert: Value -> Option<string>, escape: string -> string)
    requires m.exchange.Some?
    ensures var lines := DumpLines(m, includeBody, indent, allowStreams, allowFiles, maxChars, convert, escape);
      lines[1] == Spaces(indent) + "  <headers>" <==> |m.headers| > 0
  {
    var prefix := Spaces(indent);
    var lines := DumpLines(m, includeBody, indent, allowStreams, allowFiles, maxChars, convert, escape);
    var tag := prefix + "  <headers>";
    if |m.headers| > 0 {
      DumpHeaderElements(m, includeBody, indent, allowStreams, allowFiles, maxChars, convert, escape);
      HeadersBlockElements(prefix, m, convert, escape);
    } else if includeBody {
      var body := BodyLine(prefix, m, allowStreams, allowFiles, maxChars, convert, escape);
      FrameLast(prefix + OpenTag(m.exchange.value.exchangeId), [], body, prefix + "</message>");
      assert lines[1] == body;
      assert body[|prefix| + 3] == 'b';
      assert tag[|prefix| + 3] == 'h';
    } else {
      assert lines[1] == prefix + "</message>";
      assert lines[1][|prefix|] == '<';
      assert tag[|prefix|] == ' ';
    }
  }

  lemma FrameMiddle<T>(open: T, a: seq<T>, b: seq<T>, close: T)
    ensures forall i :: 0 <= i < |a| ==> ([open] + a + b + [close])[i + 1] == a[i]
  {
  }

  /** The body element is present exactly when asked for, just before the
      closing tag, and holds the logging extraction of the body. */
  lemma DumpBodyElement(m: Message, includeBody: bool, indent: int, allowStreams: bool, allowFiles: bool,
                        maxChars: int, convert: Value -> Option<string>, escape: string -> string)
    requires m.exchange.Some?
    ensures var lines := DumpLines(m, includeBody, indent, allowStreams, allowFiles, maxChars, convert, escape);
      && (includeBody ==>
            lines[|lines| - 2] == BodyLine(Spaces(indent), m, allowStreams, allowFiles, maxChars, convert, escape))
      && (!includeBody ==> |lines| == 2 + (if |m.headers| == 0 then 0 else |m.headers| + 2))
  {
    var prefix := Spaces(indent);
    if includeBody {
      FrameLast(prefix + OpenTag(m.exchange.value.exchangeId),
                HeadersBlock(prefix, m, convert, escape),
                BodyLine(prefix, m, allowStreams, allowFiles, maxChars, convert, escape),
                prefix + "</message>");
    }
  }

  lemma FrameLast<T>(open: T, a: seq<T>, x: T, close: T)
    ensures var s := [open] + a + [x] + [close]; s[|s| - 2] == x
  {
  }

  /** What `dumpAsXml` produced: the XML text, and whether the body
      extraction reset a stream cache on the way. */
  datatype XmlDumped = XmlDumped(text: string, cacheReset: bool)

  /** `dumpAsXml`: the lines of `DumpLines` joined by newlines, with no
      newline after the closing `</message>`. The body is extracted only
      when it is included, and a stream cache it reads is reset. */
  function DumpAsXml(m: Message, includeBody: bool, indent: int, allowStreams: bool, allowFiles: bool,
                     maxChars: int, convert: Value -> Option<string>, escape: string -> string): (r: XmlDumped)
    requires m.exchange.Some?
    ensures StartsWith(r.text, Spaces(indent) + "<message exchangeId=\"" + m.exchange.value.exchangeId + "\">")
    ensures EndsWith(r.text, Spaces(indent) + "</message>")
    ensures r.text == JoinLines(DumpLines(m, includeBody, indent, allowStreams, allowFiles, maxChars, convert, escape))
    ensures r.cacheReset <==>
      && includeBody && 0 <= maxChars && m.body.Instance? && StreamCache in m.body.kinds
      && BodyText.MayRead(m.body.kinds, allowStreams, allowFiles)
  {
    var lines := DumpLines(m, includeBody, indent, allowStreams, allowFiles, maxChars, convert, escape);
    JoinLinesBounds(lines);
    var reset := includeBody && BodyText.ExtractBodyForLogging(m, "", allowStreams, allowFiles, maxChars, convert).cacheReset;
    XmlDumped(JoinLines(lines), reset)
  }

  /** The overload without stream, file and size settings: streams refused,
      files read, clipped after 128 * 1024 characters. With streams refused
      a stream cache is never read, so it is never reset. */
  function DumpAsXmlIndented(m: Message, includeBody: bool, indent: int, convert: Value -> Option<string>,
                            escape: string -> string): (r: XmlDumped)
    requires m.exchange.Some?
    ensures r == DumpAsXml(m, includeBody, indent, false, true, 131072, convert, escape)
    ensures !r.cacheReset
  {
    DumpAsXml(m, includeBody, indent, false, true, DumpMaxChars, convert, escape)
  }

  /** The overload without indentation: no indent. */
  function DumpAsXmlWithBodyChoice(m: Message, includeBody: bool, convert: Value -> Option<string>,
                                   escape: string -> string): (r: XmlDumped)
    requires m.exchange.Some?
    ensures r == DumpAsXml(m, includeBody, 0, false, true, 131072, convert, escape)
  {
    DumpAsXmlIndented(m, includeBody, 0, convert, escape)
  }

  /** The one-argument overload: the body is included. */
  function DumpAsXmlDefault(m: Message, convert: Value -> Option<string>, escape: string -> string): (r: XmlDumped)
    requires m.exchange.Some?
    ensures r == DumpAsXml(m, true, 0, false, true, 131072, convert, escape)
  {
    DumpAsXmlWithBodyChoice(m, true, convert, escape)
  }

  /** A negative limit does not mean "no limit" in the dump: the body element
      holds the escaped "[Body is not logged]". */
  lemma NegativeLimitHidesBody(m: Message, indent: int, allowStreams: bool, allowFiles: bool, maxChars: int,
                               convert: Value -> Option<string>, escape: string -> string)
    requires m.exchange.Some?
    requires maxChars < 0
    ensures var lines := DumpLines(m, true, indent, allowStreams, allowFiles, maxChars, convert, escape);
      lines[|lines| - 2] == BodyElement(Spaces(indent), CanonicalName(m.body), BodyText.NotLogged, escape)
  {
    DumpBodyElement(m, true, indent, allowStreams, allowFiles, maxChars, convert, escape);
    assert BodyText.ExtractBodyForLogging(m, "", allowStreams, allowFiles, maxChars, convert).text == BodyText.NotLogged;
  }

  /** Headers `b` and `a` are dumped `a` first, then `b`. */
  lemma HeaderOrderExample()
    ensures SortedKeys({"b", "a"}) == ["a", "b"]
  {
    assert Less("a", "b");
    assert StrictlyAscending(["a", "b"]);
    SortedKeysIsTheAscendingEnumeration({"b", "a"}, ["a", "b"]);
  }
}
